=== FILE: README.md ===
# stilla configuration core, in Dafny

A model of the configuration resolver of stilla: a library that builds one
application configuration out of several ranked providers (configuration
files, environment variables, custom providers) and validates it against a
zod schema. The model covers the five pieces that do the work, as immutable
datatypes and pure functions:

- `Paths` (paths.dfy) — the `PathMap`: a depth-first walk over a schema tree
  (`Object`, `Array`, `Effects`, `Default`, `Optional`, `Nullable`, `Union`
  and the leaf kinds `String`, `Number`, `Boolean`, `Enum`, `NativeEnum`;
  every other zod class is `Unsupported`) that yields an insertion-ordered
  table from dotted path to type hint, with `#` standing for any array index.
  Errors are the source's `Error` messages, byte for byte, and its failed
  `node:assert` checks.
- `Env` (env.dfy) — the environment provider: prefix filtering, key
  normalisation, first-match lookup against the path table, array-index
  injection, casting by type hint and the nested write into a raw
  configuration.
- `Helpers` (helpers.dfy) — `isRawConfig` and `deepMerge` over the raw value
  type of `Values` (values.dfy), plus the left fold of merges that the file
  provider and the resolver both perform.
- `Files` (files.dfy) — the file provider: the loader table and its
  extension list, the 4×7 candidate file names, the choice of loader by
  extension, the existence filter and the load-check-merge loop.
- `Resolver` (resolver.dfy) — `ConfigResolver`: construction (which builds
  the path table), `addProvider`, `default`, and `resolve` (stable sort by
  priority, fold of `deepMerge`, validation).

A worked example, `EnvExample` (env_example.dfy), follows one variable of
the environment-provider tests through normalisation and index injection.

Support modules: `Wrappers` (Option, Result, and an in-order map over a
sequence that stops at the first failure), `Errors` (the failure taxonomy),
`Strings` (JavaScript `split`/`join`, ASCII lower-casing, the `/^[0-9]+$/`
test).

What the model takes as inputs instead of computing: the process
environment, `NODE_ENV` and the working directory (plain parameters); which
files exist (a set of paths) and what each file parses to (a function from
path to value or failure); the change-case `noCase` word splitter and the
JavaScript `Number()` conversion (function parameters, `parseNumber`
returning `None` where `Number()` gives NaN); the output of custom providers
(a function of provider identifier, path table and environment name); and
the zod validator (a function from raw configuration to typed value or
diagnostic).

The model follows the code, including where its tests expect otherwise:

- Only three type hints exist. `bigint`, literals and template literals are
  not handled by the type extractor, so they are `Unsupported` schema kinds
  and reaching one is a failed assertion, even though one environment test
  expects bigint casting.
- A union with no branches trips the `assert(typeHint)` check
  (`MissingUnionHint`).
- The variable name has every `_` replaced by `.` (`A__B` becomes `a..b`)
  and is then lower-cased; `noCase` word splitting is applied to the schema
  path's segments only.
- The `getLoader` assertion is reachable: with an empty environment name the
  candidate `.json` has no extension by Node's `extname`, so no loader claims
  it (`Files.EmptyEnvHasNoLoader`).

## Model

| member | source | states |
|---|---|---|
| Paths.ExtractType | src/paths.ts:108-139 | succeeds exactly for a string, number, boolean, enum or native-enum schema below any default/optional/nullable wrappers, giving string, number, boolean, string, string; any other kind fails with the assertion naming its class |
| Paths.WrappedObjectUnsupported | src/paths.ts:129-138 | a wrapped object and an effects schema are not leaves for the type extractor and fail the assertion with their class names |
| Paths.Get | src/paths.ts:34-36 | `get` is absent (null) exactly when no entry has the path, and otherwise returns a hint stored with the path |
| Paths.GetEntry | src/paths.ts:34-36 | in a table without duplicate paths, `get` of any entry's path returns that entry's hint |
| Paths.Add | src/paths.ts:93-105 | a new path is appended at the end; re-adding a path with its stored hint returns the table unchanged (the entry keeps its place); a different hint fails with "Collision detected at path 'p': type 'old' vs 'new'"; on success no other path's hint changes and the table keeps every earlier entry in place |
| Paths.CollisionMessageText | test/paths.test.ts:107-120 | the collision message reads "Collision detected at path 'foo': type 'string' vs 'number'" |
| Paths.AddPaths | src/paths.ts:38-58 | the walk only appends: earlier entries stay in place, paths stay unique, and every new path starts with the path of the node walked |
| Paths.AddFields | src/paths.ts:39-42 | walking an object's fields keeps the table duplicate-free and appends only paths below the object's own path |
| Paths.ChildSegments | src/paths.ts:39-42 | an object field's path is its key at the root and `parent.key` otherwise: exactly one segment more than the parent |
| Paths.ElementSegments | src/paths.ts:43-44 | an array element's path is the parent's segments plus one `#` segment, which is `.#` at the root |
| Paths.RootArray | test/paths.test.ts:42-47 | an array of strings at the root registers exactly `.#` with hint string |
| Paths.WrappersTransparent | src/paths.ts:45-52 | effects, default, optional and nullable wrappers walk their inner schema at the same path, adding no segment |
| Paths.LeafAdds | src/paths.ts:55-57 | a leaf schema adds its own hint at its own path |
| Paths.UnionLoop | src/paths.ts:60-73 | the branch loop walks object branches at the union's path, collects the hints of all other branches into a set and records whether an object branch was seen; on success every non-object branch is a leaf |
| Paths.HandleUnion | src/paths.ts:60-91 | a union's walk keeps the table duplicate-free and appends only paths below the union's path |
| Paths.UnionMixesObjectsAndPrimitives | src/paths.ts:65-80 | a union with an object branch and a non-object branch always fails, and once its branches were walked without error it fails with "Union at path 'p' mixes objects and primitives" |
| Paths.UnionOfObjects | src/paths.ts:65-81 | a union of objects registers nothing at its own path: it is its object branches walked in order at that path |
| Paths.UnionOfPrimitives | src/paths.ts:83-90 | a union of leaf branches fails with "... mixes primitives of different types" when their hints differ, adds the one common hint at its path otherwise, and trips the `typeHint` assertion when it has no branch |
| Paths.ObjectUnionCollision | test/paths.test.ts:107-120 | two object branches giving `foo` a string and a number fail with the collision message for `foo` |
| Paths.Build | src/paths.ts:26-28 | the constructor walks from the root with the empty path and yields a table with unique paths |
| Paths.WalkIsFold | src/paths.ts:38-58 | for a schema without unions or unsupported kinds, the walk is `add` applied, in depth-first order, to the schema's leaves: one entry per leaf, at the path of field keys and `#` segments leading to it, with the leaf's hint |
| Paths.FieldsFold | src/paths.ts:39-42 | the field loop from field `i` on adds the leaves of the remaining fields, field after field in `shape` order (the order of `Object.entries`: integer-like keys first, ascending, then the rest in insertion order) |
| Paths.AddEachAppend | src/paths.ts:93-105 | adding two lists of entries one after the other is adding their concatenation; a failure in the first list is the failure of the whole |
| Paths.AddEachMeaning | src/paths.ts:93-105 | repeated `add` succeeds exactly when no path is given two different hints across the table and the new entries; the resulting table then holds exactly the old and the new entries |
| Paths.AddEachFresh | src/paths.ts:93-105 | entries whose paths are new to the table and to each other are appended in order |
| Paths.BuildLeaves | src/paths.ts:26-58 | the constructor on a union-free schema succeeds exactly when no two leaves share a path with different hints; its entries are then exactly the leaves, and when the leaf paths are distinct the table is the leaf list itself, in walk order |
| Paths.ObjectIterationOrder | test/paths.test.ts:20-34 | an object with fields name, age, active yields exactly those entries in insertion order, none of its keys being integer-like |
| Paths.EmptyObject | test/paths.test.ts:36-40 | an empty object yields an empty table, in which every lookup is absent |
| Env.NormalizeKey | src/provider/env.ts:46 | the normalised key has the variable name's length, with each `_` turned into `.`, each ASCII capital `A`–`Z` lower-cased and every other character kept |
| Env.NormalizeSegments | src/provider/env.ts:49-52 | each schema path segment is passed through `noCase`, except a `#` segment, which is kept verbatim |
| Env.InjectSegments | src/provider/env.ts:91-103 | the segment loop succeeds exactly when every schema segment equals its key segment or is `#` facing a non-empty run of digits; it then captures those digit strings in order and its replaced segments equal the key's |
| Env.InjectArrayIndices | src/provider/env.ts:78-113 | `injectArrayIndices` fails when the segment counts differ or a segment does not match; on success its normalised result equals the normalised key and its path is the original path with its `#` placeholders replaced left to right by the captured digit strings |
| Env.ReplaceEachSubstitutes | src/provider/env.ts:106-110 | repeating `replace("#", index)` once per captured digit string is one left-to-right substitution of the first `#` characters |
| Env.MatchEntry | src/provider/env.ts:49-72 | an entry whose normalised path equals the key matches with its stored path unchanged; any match keeps the entry's hint |
| Env.MatchEntryCharacterized | src/provider/env.ts:54-72 | an entry matches exactly when its normalised path equals the key or holds a `#` and matches segment by segment, so the comparison after index injection can never fail; an injected match yields the substituted path |
| Env.ExtractPath | src/provider/env.ts:45-76 | the lookup of a variable name finds nothing exactly when no table entry matches its normalised key, and otherwise gives the match of the first matching entry in table order, with that entry's hint |
| EnvExample.NormalizeKeyUnderscore | src/provider/env.ts:46 | normalising a name with an `_` in it normalises both sides and puts a `.` between them |
| EnvExample.InjectedExtract | src/provider/env.ts:58-72 | an entry holding a `#` segment whose segments differ from the key's but each accept the key's is found with its placeholders replaced by the captured digit strings, keeping its hint |
| EnvExample.ExtractPathExample | test/provider/env.test.ts:69-83 | with `noCase` splitting `objectArray` into `object.array`, the variable `OBJECT_ARRAY_0_KEY4` is found at `objectArray.0.key4` through the table entry `objectArray.#.key4` |
| Env.FirstMatch | src/provider/env.ts:45-76 | the lookup finds nothing exactly when no entry matches, and otherwise returns the match of the first matching entry in table order |
| Env.Cast | src/provider/env.ts:115-129 | a string hint passes the value unchanged, a boolean hint yields a boolean, a number hint yields a number or the raw string |
| Env.CastSemantics | src/provider/env.ts:117-127 | a boolean is true exactly for "true" in any letter case or for "1"; a number that does not parse stays the raw string and one that does becomes that number; a string is unchanged |
| Env.NewContainer | src/provider/env.ts:154 | a created container is an array exactly when the next segment is all digits, and an object otherwise |
| Env.Put | src/provider/env.ts:139-146 | the terminal assignment stores the value at the segment (by index in an array) and keeps the container's kind |
| Env.SetIn | src/provider/env.ts:131-171 | after a successful nested write the value sits at the path, and the root keeps its kind |
| Env.SetNestedValue | src/provider/env.ts:131-147 | after `setNestedValue` the value is found at the segments of the dotted path |
| Env.SetInPreserves | src/provider/env.ts:159-170 | existing truthy containers are reused, so every value on a path that leaves the written path stays where it was: earlier sibling writes survive |
| Env.SetInContainers | src/provider/env.ts:154-168 | after a write every proper prefix of the path holds a container: the truthy one that was there, or a new one that is an array exactly when the next segment is all digits |
| Env.Read | src/provider/env.ts:24-43 | when every variable lacks a value, lacks the prefix or matches no table entry, the result is the empty configuration |
| Env.ReadSkips | src/provider/env.ts:29-36 | a variable without a value, lacking a non-empty prefix, or matching no table entry leaves the result unchanged |
| Env.ReadWrites | src/provider/env.ts:34-39 | a matched variable's cast value is found at its concrete path of the result, and values written by earlier variables on diverging paths survive |
| Env.ReadWithOptionsDefaults | src/provider/env.ts:25 | without options the process environment is read with the empty prefix; an absent prefix reads like the empty one; with explicit variables the process environment is not read |
| Helpers.IsRawConfig | src/helpers.ts:3-4 | true exactly for a non-null, non-array value whose `typeof` is "object" |
| Helpers.DeepMerge | src/helpers.ts:13-26 | the result's keys are the union of both key sets; base-only keys keep their value; an overlay array replaces the base value; an overlay value replaces any base value that is not an object; two objects merge into an object holding both key sets |
| Helpers.MergeEmptyOverlay | test/helpers.test.ts:56-63 | an empty overlay leaves the base unchanged |
| Helpers.MergeEmptyBase | test/helpers.test.ts:65-72 | merging into an empty base yields the overlay |
| Helpers.MergeSelf | src/helpers.ts:18-24 | merging a record with itself changes nothing |
| Helpers.MergeIdempotent | src/helpers.ts:14-25 | merging the same overlay twice gives the same result as merging it once |
| Helpers.OverlayWins | src/helpers.ts:18-23 | every non-object value the overlay holds at an object path is found at that path of the merge |
| Helpers.BasePreserved | src/helpers.ts:14-25 | a base value at a path the overlay does not reach survives the merge unchanged |
| Helpers.MergeExample | test/helpers.test.ts:29-36 | `{a:1, b:{c:2}}` merged with `{b:{d:3}, e:4}` is `{a:1, b:{c:2, d:3}, e:4}` |
| Helpers.MergeAll | src/resolver.ts:53-56 | the fold of merges keeps every key of the accumulator and of every layer |
| Helpers.MergeAllPreserves | src/provider/file.ts:25-34 | a value that no later layer reaches survives the rest of the fold |
| Helpers.LaterLayerWins | src/resolver.ts:53-56 | a non-object value held by a layer at a path is the fold's value there unless a later layer reaches that path |
| Wrappers.MapAll | src/resolver.ts:53-56 | reading in order succeeds exactly when every step does and then returns every step's result in order; otherwise it returns the error of the first failing step |
| Files.ConcatExtensions | src/provider/file.ts:159-162 | the concatenated extension list holds exactly the extensions some loader claims |
| Files.AllowedExtensionsInOrder | src/provider/file.ts:90-162 | the allowed extensions are js, ts, json, yaml, yml, toml, json5, in that order |
| Files.WithExtensions | src/provider/file.ts:57-59 | the inner loop gives one name per extension, `base.ext`, in extension order |
| Files.ProductLength | src/provider/file.ts:56-60 | the nested loops give one name per pair of base name and extension: as many names as base names times extensions |
| Files.ProductMemberOf | src/provider/file.ts:56-60 | conversely, every name the loops produce is some base name, a `.`, and some extension |
| Files.ProductAt | src/provider/file.ts:52-63 | with `n` extensions, name `i·n + j` is base name `i` with extension `j`: base names form the outer loop |
| Files.AllowedFileNamesLayout | src/provider/file.ts:52-63 | there are 28 candidates, name `7i + j` being `default`, `env`, `local`, `local-env` (for `i` = 0..3) with extension `j` |
| Files.LocalEnvCandidates | src/provider/file.ts:53-59 | the last seven candidates are `local-<env>` with each allowed extension, in extension order |
| Files.BasePath | src/provider/file.ts:68 | the base path is the option when given and `<cwd>/config` otherwise |
| Files.ExtName | src/provider/file.ts:40 | the extension is empty or a `.` followed by a `.`-free tail |
| Files.FindLoader | src/provider/file.ts:42-46 | the search returns the first loader claiming the extension, and nothing exactly when no loader does |
| Files.GetLoader | src/provider/file.ts:39-50 | `getLoader` succeeds exactly when the extension is an allowed one, returning the first loader that claims it; otherwise it is the assertion naming the extension |
| Files.LoaderForEveryCandidate | src/provider/file.ts:39-50 | for every candidate name under any directory a loader exists, for a non-empty environment name not ending in `/` |
| Files.EmptyEnvHasNoLoader | src/provider/file.ts:40-49 | with an empty environment name, `.ext` is a candidate for every allowed extension and no loader claims it |
| Files.KeepExisting | src/provider/file.ts:70-79 | the located paths are exactly the candidates that exist |
| Files.KeepExistingAppend | src/provider/file.ts:65-82 | the existence filter distributes over concatenation, so located paths keep candidate order |
| Files.LocateFiles | src/provider/file.ts:65-82 | a path is located exactly when it exists and is the base path joined with a candidate name |
| Files.LoadOne | src/provider/file.ts:26-31 | a file is loaded with its loader; a missing loader or a failed load is passed on; a loaded value that is not a raw config fails with "Loader did not return an object for <path>" |
| Files.Read | src/provider/file.ts:21-37 | `read` succeeds exactly when every located file loads as a raw config, and then is the fold of `deepMerge` from `{}` over them in candidate order |
| Files.LaterFileWins | src/provider/file.ts:25-34 | a non-object value a file holds at a path is the value read there unless a later located file reaches that path |
| Files.KeepExistingAt | src/provider/file.ts:70-79 | the existence filter splits at any existing candidate: the existing earlier candidates, then that candidate, then the existing later ones |
| Files.LocatedAt | src/provider/file.ts:65-82 | the located paths keep candidate order: an existing candidate is located at a position with exactly the existing earlier candidates before it and exactly the existing later candidates after it |
| Files.LaterCandidateWins | src/provider/file.ts:25-36 | a non-object value that candidate `a`'s file holds at a path is the value read there, unless an existing, loadable later candidate reaches that path; candidates go `default`, `<env>`, `local`, `local-<env>`, each through all extensions |
| Files.LocalEnvFileWins | test/provider/file.test.ts:40-44 | a non-object value in `local-<env>.<ext>` is the value read unless a `local-<env>` file with a later extension reaches that path: no `default`, `<env>` or `local` file overrides it |
| Resolver.EnvName | src/resolver.ts:19 | the environment name is the argument when given, else `NODE_ENV`, else "development" |
| Resolver.New | src/resolver.ts:19-23 | construction fails exactly when building the path table fails, with its error; otherwise it holds the table, the environment name and no providers |
| Resolver.AddProvider | src/resolver.ts:25-30 | the new item is appended at the end and nothing else changes |
| Resolver.Default | src/resolver.ts:32-39 | the default resolver registers the file provider at 100, then the env provider at 200 |
| Resolver.Insert | src/resolver.ts:49-50 | inserting into the sorted list adds exactly that item |
| Resolver.SortByPriority | src/resolver.ts:49-51 | the sort returns a permutation of the registered items |
| Resolver.SortSorted | src/resolver.ts:49-50 | the sort puts the items in ascending priority |
| Resolver.SortStable | src/resolver.ts:49-50 | items of equal priority come out in registration order |
| Resolver.TopPriorityLast | src/resolver.ts:49-51 | an item whose priority is above every other comes out last |
| Resolver.ReadProviderDefaults | src/resolver.ts:53-54 | each provider reads with the resolver's table and environment name: a file provider without options reads under `<cwd>/config`, an environment provider without options reads the process environment with the empty prefix, a custom provider gives the host's output |
| Resolver.LayersSucceed | src/resolver.ts:49-56 | the provider reads succeed exactly when every registered provider's read succeeds, whatever the priorities; otherwise the failure is the error of a registered provider |
| Resolver.Merged | src/resolver.ts:47-56 | the merged configuration is the fold of `deepMerge` from `{}` over the provider outputs in sorted order; a failing read is passed on |
| Resolver.Resolve | src/resolver.ts:41-65 | a read failure is passed on; a validator rejection becomes "Failed to parse config: <diagnostic>"; otherwise the validator's output is returned |
| Resolver.HighestPriorityWins | src/resolver.ts:49-56 | the non-object value the highest-priority provider gives at a path is the merged value there |
| Resolver.DefaultEnvOverridesFiles | src/resolver.ts:32-39 | with the default providers, the environment's values override the files' |
| Resolver.PrioritizesExample | test/resolver.test.ts:55-70 | providers registered at 100 then 50 merge to the high-priority values on every conflict |
| Strings.Split | src/provider/env.ts:84-85 | `split` yields at least one piece and no piece holds the delimiter |
| Strings.JoinSplit | src/provider/env.ts:105 | joining the pieces of a split gives back the original string |
| Strings.SplitJoin | src/provider/env.ts:49-52 | splitting a join of delimiter-free pieces gives back the pieces |

## Left out

- File system access, dynamic `import` and the JSON, YAML, TOML and JSON5 parsers (src/provider/file.ts:94-156): file existence is a set of paths and parsing a function from path to value or failure, so the messages for a missing optional parser are not modelled.
- Promises and `await`: every provider read is a pure function returning a value or a failure, evaluated in order.
- The zod validator `safeParse`: a function parameter returning a typed value or a diagnostic string.
- change-case `noCase` and JavaScript `Number()`: function parameters; nothing about them is assumed, so results that depend on their exact behaviour are stated in terms of the parameters.
- Floating point: numbers are Dafny reals, and a digit string used as an array index is read as an unbounded natural number.
- Schema kinds the code does not handle (bigint, literal, template literal, readonly, pipe, record, ...): one `Unsupported` kind carrying the class name.
- JavaScript object details: reference aliasing (the merge and the nested write work on values), inherited and `__proto__` keys, key enumeration order of objects (the raw value uses maps), array holes beyond an index-to-value map.
- Env.SetIn: a segment that is not all digits, used on an array container, is a failure here, where JavaScript writes whatever `Number(segment)` names (index 0 for `""`, index 10 for `1e1`, a property for `Infinity` or `NaN`); writing below a truthy primitive, a strict-mode `TypeError` in JavaScript, is a failure without its message text. Either failure makes the whole `Env.Read` fail.
- Env.Read: the variables are a sequence of name and optional value pairs in `Object.entries` order; duplicate names are not excluded.
- Files.JoinPath: `path.join` is plain concatenation with `/`, without normalising `.`, `..` or repeated separators; `Files.ExtName` likewise assumes no trailing separator.
- Files.LoaderForEveryCandidate: stated only for a non-empty environment name not ending in `/`, because for the empty name the assertion in `getLoader` is reachable.
- Priorities are integers: the comparator `a.priority - b.priority` on non-integer, infinite or NaN priorities is not modelled.
- Custom providers are known by an identifier; their reads are a function parameter.
- Env.NormalizeKey: lower-cases only `A`–`Z`, where JavaScript's `toLowerCase` follows Unicode (`ÜBER` becomes `über` there and `Über` here; `İ` becomes two code units there, so the length claim is only the model's); `Strings.ToLower` has the same restriction.
- Paths.AddPaths: its own contract states only that the walk appends below the walked path; which entries it adds is stated by `Paths.WalkIsFold` for union-free schemas and by the union lemmas for unions.
- Paths.AddFields: likewise; which entries the field loop adds is stated by `Paths.FieldsFold`. The field list `shape` is taken to be already in `Object.entries` order (integer-like keys first, ascending); the model does not reorder a declaration-order field list itself, so `{b, "1"}` must be given as `[("1", …), ("b", …)]`.
- Paths.Build: likewise; its entries are stated by `Paths.BuildLeaves` for union-free schemas, and a union's contribution by `Paths.UnionOfObjects`, `Paths.UnionOfPrimitives` and `Paths.UnionMixesObjectsAndPrimitives`.
- Resolver.ReadProvider: has no contract of its own; what each provider kind reads is stated by `Resolver.ReadProviderDefaults`, and how the reads combine by `Resolver.LayersSucceed`.
- Resolver.Layers: has no contract of its own; that it succeeds exactly when every provider does is stated by `Resolver.LayersSucceed`, and that the highest-priority provider's read comes last by `Resolver.HighestPriorityWins`.
- Files.AllowedFileNames: has no contract of its own; its layout is stated by `Files.AllowedFileNamesLayout` and `Files.LocalEnvCandidates`.

=== FILE: env.dfy ===
/**
 * `EnvConfigProvider` (src/provider/env.ts): turns environment variables into
 * a raw configuration. A variable's name, after its prefix, is matched against
 * the path table: `_` becomes `.`, and `#` segments of a schema path accept
 * any run of digits, which become concrete array indices. The value is cast
 * by the path's type hint and written at the concrete path.
 *
 * The word splitter `noCase` of the change-case library and the JavaScript
 * `Number()` conversion are parameters: `noCase` maps one schema segment to
 * its lower-case, `.`-delimited words, and `parseNumber` returns `None` where
 * `Number()` yields NaN.
 */
module Env {
  import opened Wrappers
  import opened Errors
  import opened Strings
  import opened Values
  import Paths

  /* ---------- Normalisation ---------- */

  /** The variable name with every `_` turned into `.`, then lower-cased. */
  function NormalizeKey(key: string): (r: string)
    ensures |r| == |key|
    ensures forall i :: 0 <= i < |key| ==> r[i] == (if key[i] == '_' then '.' else LowerChar(key[i]))
  {
    ToLower(ReplaceAll(key, '_', '.'))
  }

  /** Each schema segment through `noCase`, except a `#` segment, which stays. */
  function NormalizeSegments(parts: seq<string>, noCase: string -> string): (r: seq<string>)
    ensures |r| == |parts|
    ensures forall i :: 0 <= i < |parts| ==> r[i] == (if parts[i] == "#" then "#" else noCase(parts[i]))
  {
    if parts == [] then []
    else [if parts[0] == "#" then "#" else noCase(parts[0])] + NormalizeSegments(parts[1..], noCase)
  }

  /** The schema path normalised segment by segment and joined with `.`. */
  function NormalizeName(name: string, noCase: string -> string): string {
    Join(NormalizeSegments(Split(name, '.'), noCase), '.')
  }

  /* ---------- Array-index injection ---------- */

  /** A schema segment accepts a key segment if they are equal or it is `#` facing digits. */
  predicate SegmentMatches(search: string, key: string) {
    (search == "#" && IsDigits(key)) || search == key
  }

  /** The key segments that `#` segments captured, left to right. */
  function Captured(search: seq<string>, keys: seq<string>): (r: seq<string>)
    requires |search| == |keys|
    ensures forall j :: 0 <= j < |r| ==> IsDigits(r[j])
  {
    if search == [] then []
    else (if search[0] == "#" && IsDigits(keys[0]) then [keys[0]] else []) + Captured(search[1..], keys[1..])
  }

  /** Every segment matches exactly when the first does and every later one does. */
  lemma MatchesTail(search: seq<string>, keys: seq<string>)
    requires |search| == |keys| && search != []
    ensures (forall i :: 0 <= i < |search| ==> SegmentMatches(search[i], keys[i])) <==>
      SegmentMatches(search[0], keys[0]) &&
      forall i :: 0 <= i < |search[1..]| ==> SegmentMatches(search[1..][i], keys[1..][i])
  {
    assert forall i :: 1 <= i < |search| ==> search[1..][i - 1] == search[i] && keys[1..][i - 1] == keys[i];
  }

  /**
   * The loop of `injectArrayIndices`: the captured indices and the search
   * segments with each captured `#` overwritten by its key segment; `None`
   * at the first segment that does not match.
   */
  function InjectSegments(search: seq<string>, keys: seq<string>): (r: Option<(seq<string>, seq<string>)>)
    requires |search| == |keys|
    ensures r.Some? <==> forall i :: 0 <= i < |search| ==> SegmentMatches(search[i], keys[i])
    ensures r.Some? ==> r.value.1 == keys
    ensures r.Some? ==> r.value.0 == Captured(search, keys)
  {
    if search == [] then Some(([], []))
    else
      var rest := InjectSegments(search[1..], keys[1..]);
      MatchesTail(search, keys);
      if search[0] == "#" && IsDigits(keys[0]) then
        if rest.None? then None else Some(([keys[0]] + rest.value.0, [keys[0]] + rest.value.1))
      else if search[0] != keys[0] then None
      else if rest.None? then None
      else Some((rest.value.0, [search[0]] + rest.value.1))
  }

  /** `indexedName.replace("#", index)` for each captured index in turn. */
  function ReplaceEach(name: string, indices: seq<string>): string
    decreases |indices|
  {
    if indices == [] then name else ReplaceEach(ReplaceFirst(name, '#', indices[0]), indices[1..])
  }

  /**
   * The intended reading of the replacement: the first `#` characters of the
   * name, left to right, each replaced by the next index.
   */
  function Substitute(name: string, indices: seq<string>): string
    decreases |name|
  {
    if name == [] then []
    else if name[0] == '#' && indices != [] then indices[0] + Substitute(name[1..], indices[1..])
    else [name[0]] + Substitute(name[1..], indices)
  }

  /**
   * `injectArrayIndices`: `None` when the segment counts differ or a segment
   * does not match; otherwise the name with its placeholders filled in, and
   * the normalised name with its `#` segments filled in.
   */
  function InjectArrayIndices(normalizedKey: string, name: string, normalizedName: string)
    : (r: Option<(string, string)>)
    ensures r.Some? <==>
      |Split(normalizedName, '.')| == |Split(normalizedKey, '.')| &&
      forall i :: 0 <= i < |Split(normalizedName, '.')| ==>
        SegmentMatches(Split(normalizedName, '.')[i], Split(normalizedKey, '.')[i])
    ensures r.Some? ==> r.value.1 == normalizedKey
    ensures r.Some? ==>
      r.value.0 == Substitute(name, Captured(Split(normalizedName, '.'), Split(normalizedKey, '.')))
  {
    var searchParts := Split(normalizedName, '.');
    var keyParts := Split(normalizedKey, '.');
    if |searchParts| != |keyParts| then None
    else
      match InjectSegments(searchParts, keyParts)
      case None => None
      case Some((indices, replaced)) =>
        JoinSplit(normalizedKey, '.');
        ReplaceEachSubstitutes(name, indices);
        Some((ReplaceEach(name, indices), Join(replaced, '.')))
  }

  lemma {:induction false} NoHashInDigits(s: string)
    requires IsDigits(s)
    ensures !Contains(s, '#')
  {
    forall i | 0 <= i < |s| ensures s[i] != '#' {
      assert IsDigit(s[i]);
    }
  }

  lemma {:induction false} ReplaceFirstAfter(a: string, b: string, r: string)
    requires !Contains(a, '#')
    ensures ReplaceFirst(a + b, '#', r) == a + ReplaceFirst(b, '#', r)
  {
    if a != [] {
      assert (a + b)[0] == a[0] && (a + b)[1..] == a[1..] + b;
      assert a[0] != '#';
      assert !Contains(a[1..], '#') by {
        forall i | 0 <= i < |a[1..]| ensures a[1..][i] != '#' {
          assert a[1..][i] == a[i + 1];
        }
      }
      ReplaceFirstAfter(a[1..], b, r);
      assert ReplaceFirst(a + b, '#', r) == [a[0]] + ReplaceFirst(a[1..] + b, '#', r);
      assert [a[0]] + (a[1..] + ReplaceFirst(b, '#', r)) == a + ReplaceFirst(b, '#', r);
    } else {
      assert a + b == b;
    }
  }

  lemma {:induction false} ReplaceEachAfter(a: string, b: string, indices: seq<string>)
    requires !Contains(a, '#')
    ensures ReplaceEach(a + b, indices) == a + ReplaceEach(b, indices)
    decreases |indices|
  {
    if indices != [] {
      ReplaceFirstAfter(a, b, indices[0]);
      ReplaceEachAfter(a, ReplaceFirst(b, '#', indices[0]), indices[1..]);
    }
  }

  lemma {:induction false} ReplaceEachEmpty(indices: seq<string>)
    ensures ReplaceEach([], indices) == []
    decreases |indices|
  {
    if indices != [] {
      ReplaceEachEmpty(indices[1..]);
    }
  }

  lemma {:induction false} SubstituteNone(name: string)
    ensures Substitute(name, []) == name
    decreases |name|
  {
    if name != [] {
      SubstituteNone(name[1..]);
    }
  }

  /** Replacing `#` once per digit string is a single left-to-right substitution. */
  lemma {:induction false} ReplaceEachSubstitutes(name: string, indices: seq<string>)
    requires forall j :: 0 <= j < |indices| ==> IsDigits(indices[j])
    ensures ReplaceEach(name, indices) == Substitute(name, indices)
    decreases |name|
  {
    if name == [] {
      ReplaceEachEmpty(indices);
    } else if indices == [] {
      SubstituteNone(name);
    } else if name[0] == '#' {
      NoHashInDigits(indices[0]);
      assert ReplaceFirst(name, '#', indices[0]) == indices[0] + name[1..];
      ReplaceEachAfter(indices[0], name[1..], indices[1..]);
      ReplaceEachSubstitutes(name[1..], indices[1..]);
    } else {
      assert !Contains([name[0]], '#');
      assert name == [name[0]] + name[1..];
      ReplaceEachAfter([name[0]], name[1..], indices);
      ReplaceEachSubstitutes(name[1..], indices);
    }
  }

  /* ---------- Path lookup ---------- */

  /**
   * One entry of the table against the normalised key: a direct match keeps
   * the stored path; otherwise a path with `#` segments may match through
   * index injection, provided the injected normalised name equals the key.
   */
  function MatchEntry(normalizedKey: string, entry: (string, Paths.Hint), noCase: string -> string)
    : (r: Option<(string, Paths.Hint)>)
    ensures r.Some? ==> r.value.1 == entry.1
    ensures NormalizeName(entry.0, noCase) == normalizedKey ==> r == Some(entry)
  {
    var (name, hint) := entry;
    var normalizedName := NormalizeName(name, noCase);
    if normalizedName == normalizedKey then Some((name, hint))
    else if !Contains(normalizedName, '#') then None
    else
      match InjectArrayIndices(normalizedKey, name, normalizedName)
      case None => None
      case Some((indexedName, indexedNormalizedName)) =>
        if indexedNormalizedName == normalizedKey then Some((indexedName, hint)) else None
  }

  /**
   * The final comparison of an injected match can never fail: an entry
   * matches exactly when its normalised path equals the key, or it holds a
   * `#` and every segment matches; an injected match yields the path with its
   * placeholders replaced, in order, by the captured digit strings.
   */
  lemma MatchEntryCharacterized(normalizedKey: string, entry: (string, Paths.Hint), noCase: string -> string)
    ensures var nn := NormalizeName(entry.0, noCase);
      var search := Split(nn, '.');
      var keys := Split(normalizedKey, '.');
      && (MatchEntry(normalizedKey, entry, noCase).Some? <==>
          nn == normalizedKey ||
          (Contains(nn, '#') && |search| == |keys| &&
           forall i :: 0 <= i < |search| ==> SegmentMatches(search[i], keys[i])))
      && (MatchEntry(normalizedKey, entry, noCase).Some? && nn != normalizedKey ==>
          |search| == |keys| &&
          MatchEntry(normalizedKey, entry, noCase).value.0 == Substitute(entry.0, Captured(search, keys)))
  {
  }

  /** `extractPath` over the entries in table order: the first entry that matches. */
  function FirstMatch(normalizedKey: string, entries: seq<(string, Paths.Hint)>, noCase: string -> string)
    : (r: Option<(string, Paths.Hint)>)
    ensures r.None? <==> forall i :: 0 <= i < |entries| ==> MatchEntry(normalizedKey, entries[i], noCase).None?
    ensures r.Some? ==>
      exists i :: 0 <= i < |entries| && MatchEntry(normalizedKey, entries[i], noCase) == r &&
                  (forall j :: 0 <= j < i ==> MatchEntry(normalizedKey, entries[j], noCase).None?)
  {
    FindFirst(entries, (entry: (string, Paths.Hint)) => MatchEntry(normalizedKey, entry, noCase))
  }

  function ExtractPath(key: string, paths: Paths.PathMap, noCase: string -> string): (r: Option<(string, Paths.Hint)>)
    ensures r.None? <==>
      forall i :: 0 <= i < |paths.entries| ==> MatchEntry(NormalizeKey(key), paths.entries[i], noCase).None?
    ensures r.Some? ==>
      exists i :: 0 <= i < |paths.entries| && MatchEntry(NormalizeKey(key), paths.entries[i], noCase) == r &&
                  r.value.1 == paths.entries[i].1 &&
                  (forall j :: 0 <= j < i ==> MatchEntry(NormalizeKey(key), paths.entries[j], noCase).None?)
  {
    FirstMatch(NormalizeKey(key), paths.entries, noCase)
  }

  /* ---------- Casting ---------- */

  /** `castValue`: the raw string turned into a value of the hinted type. */
  function Cast(value: string, hint: Paths.Hint, parseNumber: string -> Option<real>): (r: Value)
    ensures hint.StringHint? ==> r == Str(value)
    ensures hint.BooleanHint? ==> r.Bool?
    ensures hint.NumberHint? ==> r.Num? || r == Str(value)
  {
    match hint
    case BooleanHint => Bool(ToLower(value) == "true" || value == "1")
    case NumberHint => if parseNumber(value).Some? then Num(parseNumber(value).value) else Str(value)
    case StringHint => Str(value)
  }

  /** "true" compared letter by letter, ignoring ASCII case. */
  predicate IsTrueWord(value: string) {
    |value| == 4 && LowerChar(value[0]) == 't' && LowerChar(value[1]) == 'r' &&
    LowerChar(value[2]) == 'u' && LowerChar(value[3]) == 'e'
  }

  /**
   * A boolean is true exactly for "true" in any case and for "1"; a number
   * that does not parse stays the raw string; a string passes unchanged.
   */
  lemma CastSemantics(value: string, parseNumber: string -> Option<real>)
    ensures Cast(value, Paths.BooleanHint, parseNumber) == Bool(IsTrueWord(value) || value == "1")
    ensures parseNumber(value).None? ==> Cast(value, Paths.NumberHint, parseNumber) == Str(value)
    ensures parseNumber(value).Some? ==> Cast(value, Paths.NumberHint, parseNumber) == Num(parseNumber(value).value)
    ensures Cast(value, Paths.StringHint, parseNumber) == Str(value)
  {
    var lower := ToLower(value);
    if IsTrueWord(value) {
      assert lower == "true";
    }
  }

  /* ---------- Nested writes ---------- */

  /** The existing child of a container at a path segment. */
  function Entry(v: Value, segment: string): Option<Value> {
    match v
    case Obj(fields) => if segment in fields then Some(fields[segment]) else None
    case Arr(elems) =>
      if IsDigits(segment) && DigitsValue(segment) in elems then Some(elems[DigitsValue(segment)]) else None
    case _ => None
  }

  /** The value at a segment path, following object keys and array indices. */
  function At(v: Value, segments: seq<string>): Option<Value>
    decreases |segments|
  {
    if segments == [] then Some(v)
    else match Entry(v, segments[0])
      case None => None
      case Some(child) => At(child, segments[1..])
  }

  /** The container `getNextLevel` creates: an array when the next segment is all digits. */
  function NewContainer(nextSegment: string): (r: Value)
    ensures r.Arr? <==> IsDigits(nextSegment)
    ensures r.Obj? <==> !IsDigits(nextSegment)
  {
    if IsDigits(nextSegment) then Arr(map[]) else Obj(map[])
  }

  /**
   * Assignment of `value` at one segment: by key in an object, by index in an
   * array. Writing into a primitive is the strict-mode `TypeError`.
   */
  function Put(container: Value, segment: string, value: Value, path: string): (r: Result<Value, Failure>)
    ensures r.Success? ==> Entry(r.value, segment) == Some(value)
    ensures r.Success? ==> (r.value.Obj? <==> container.Obj?) && (r.value.Arr? <==> container.Arr?)
  {
    match container
    case Obj(fields) => Success(Obj(fields[segment := value]))
    case Arr(elems) =>
      if IsDigits(segment) then Success(Arr(elems[DigitsValue(segment) := value]))
      else Failure(IndexOnArray(path))
    case _ => Failure(TypeError(path))
  }

  /**
   * The walk of `setNestedValue` from `current` along `segments`: a missing
   * or falsy child is replaced by a new container, a truthy one is reused, and
   * the last segment receives the value.
   */
  function SetIn(current: Value, segments: seq<string>, value: Value, path: string): (r: Result<Value, Failure>)
    requires |segments| >= 1
    ensures r.Success? ==> At(r.value, segments) == Some(value)
    ensures r.Success? ==> (r.value.Obj? <==> current.Obj?) && (r.value.Arr? <==> current.Arr?)
    decreases |segments|
  {
    if |segments| == 1 then Put(current, segments[0], value, path)
    else if !(current.Obj? || current.Arr?) then Failure(TypeError(path))
    else if current.Arr? && !IsDigits(segments[0]) then Failure(IndexOnArray(path))
    else
      var existing := Entry(current, segments[0]);
      var next := if existing.Some? && Truthy(existing.value) then existing.value else NewContainer(segments[1]);
      var updated :- SetIn(next, segments[1..], value, path);
      Put(current, segments[0], updated, path)
  }

  /** `setNestedValue`: the raw configuration with `value` written at the dotted `path`. */
  function SetNestedValue(raw: RawConfig, path: string, value: Value): (r: Result<RawConfig, Failure>)
    ensures r.Success? ==> At(Obj(r.value), Split(path, '.')) == Some(value)
  {
    var written :- SetIn(Obj(raw), Split(path, '.'), value, path);
    Success(written.fields)
  }

  /** Two segments address different children of any container. */
  predicate SegmentsDiffer(a: string, b: string) {
    a != b && !(IsDigits(a) && IsDigits(b) && DigitsValue(a) == DigitsValue(b))
  }

  /** Path `q` leaves path `segments` at some segment before either ends. */
  predicate Diverges(q: seq<string>, segments: seq<string>)
    decreases |q|
  {
    |q| >= 1 && |segments| >= 1 &&
    (SegmentsDiffer(q[0], segments[0]) || (q[0] == segments[0] && Diverges(q[1..], segments[1..])))
  }

  lemma PutKeepsOthers(container: Value, segment: string, value: Value, path: string, other: string)
    requires Put(container, segment, value, path).Success?
    requires SegmentsDiffer(other, segment)
    ensures Entry(Put(container, segment, value, path).value, other) == Entry(container, other)
  {
  }

  /** A write leaves every value on a diverging path where it was: earlier sibling writes survive. */
  lemma {:induction false} SetInPreserves(current: Value, segments: seq<string>, value: Value, path: string,
                                          q: seq<string>, w: Value)
    requires |segments| >= 1
    requires SetIn(current, segments, value, path).Success?
    requires At(current, q) == Some(w)
    requires Diverges(q, segments)
    ensures At(SetIn(current, segments, value, path).value, q) == Some(w)
    decreases |segments|
  {
    var r := SetIn(current, segments, value, path).value;
    if SegmentsDiffer(q[0], segments[0]) {
      if |segments| == 1 {
        PutKeepsOthers(current, segments[0], value, path, q[0]);
      } else {
        var existing := Entry(current, segments[0]);
        var next := if existing.Some? && Truthy(existing.value) then existing.value else NewContainer(segments[1]);
        var updated := SetIn(next, segments[1..], value, path).value;
        PutKeepsOthers(current, segments[0], updated, path, q[0]);
      }
    } else {
      assert q[0] == segments[0] && Diverges(q[1..], segments[1..]);
      var existing := Entry(current, segments[0]);
      assert existing.Some? && At(existing.value, q[1..]) == Some(w);
      assert existing.value.Obj? || existing.value.Arr?;
      SetInPreserves(existing.value, segments[1..], value, path, q[1..], w);
    }
  }

  /**
   * After a write, every proper prefix of the path holds a container: the
   * truthy one that was there, or a new one that is an array exactly when the
   * next segment is all digits.
   */
  lemma {:induction false} SetInContainers(current: Value, segments: seq<string>, value: Value, path: string, j: nat)
    requires |segments| >= 1
    requires SetIn(current, segments, value, path).Success?
    requires 0 < j < |segments|
    ensures var r := SetIn(current, segments, value, path).value;
      var before := At(current, segments[..j]);
      var after := At(r, segments[..j]);
      && after.Some?
      && (before.Some? && Truthy(before.value) ==>
            (after.value.Obj? <==> before.value.Obj?) && (after.value.Arr? <==> before.value.Arr?))
      && (!(before.Some? && Truthy(before.value)) ==>
            (after.value.Arr? <==> IsDigits(segments[j])) && (after.value.Obj? <==> !IsDigits(segments[j])))
    decreases |segments|
  {
    var r := SetIn(current, segments, value, path).value;
    var existing := Entry(current, segments[0]);
    var next := if existing.Some? && Truthy(existing.value) then existing.value else NewContainer(segments[1]);
    var updated := SetIn(next, segments[1..], value, path).value;
    assert Entry(r, segments[0]) == Some(updated);
    assert segments[..j][0] == segments[0];
    assert segments[..j][1..] == segments[1..][..j - 1];
    if j == 1 {
      assert At(r, segments[..1]) == Some(updated);
      assert At(current, segments[..1]) == existing;
    } else {
      SetInContainers(next, segments[1..], value, path, j - 1);
      if existing.Some? && Truthy(existing.value) {
        assert At(current, segments[..j]) == At(next, segments[1..][..j - 1]);
      } else {
        FreshHasNothing(next, segments[1..][..j - 1]);
        if existing.Some? {
          NothingBelowFalsy(existing.value, segments[1..][..j - 1]);
        }
      }
    }
  }

  lemma FreshHasNothing(created: Value, q: seq<string>)
    requires created == Arr(map[]) || created == Obj(map[])
    requires |q| >= 1
    ensures At(created, q).None?
  {
  }

  lemma NothingBelowFalsy(v: Value, q: seq<string>)
    requires !Truthy(v)
    requires |q| >= 1
    ensures At(v, q).None?
  {
  }

  /* ---------- Reading ---------- */

  /** A variable is considered when it has a value and, for a non-empty prefix, starts with it. */
  predicate Selected(prefix: string, variable: (string, Option<string>)) {
    variable.1.Some? && (prefix == "" || StartsWith(variable.0, prefix))
  }

  /** One variable of the `read` loop. */
  function ReadVariable(acc: RawConfig, prefix: string, variable: (string, Option<string>), paths: Paths.PathMap,
                        noCase: string -> string, parseNumber: string -> Option<real>): Result<RawConfig, Failure>
  {
    var (key, value) := variable;
    if !Selected(prefix, variable) then Success(acc)
    else
      match ExtractPath(key[|prefix|..], paths, noCase)
      case None => Success(acc)
      case Some((path, hint)) => SetNestedValue(acc, path, Cast(value.value, hint, parseNumber))
  }

  /** `read`: every variable, in order, written into one raw configuration. */
  function Read(prefix: string, variables: seq<(string, Option<string>)>, paths: Paths.PathMap,
                noCase: string -> string, parseNumber: string -> Option<real>): (r: Result<RawConfig, Failure>)
    ensures (forall i :: 0 <= i < |variables| ==>
               !Selected(prefix, variables[i]) || ExtractPath(variables[i].0[|prefix|..], paths, noCase).None?) ==>
            r == Success(map[])
    decreases |variables|
  {
    if variables == [] then Success(map[])
    else
      var acc :- Read(prefix, variables[..|variables| - 1], paths, noCase, parseNumber);
      ReadVariable(acc, prefix, variables[|variables| - 1], paths, noCase, parseNumber)
  }

  /**
   * A variable without a value, without the prefix, or whose name matches no
   * table entry changes nothing.
   */
  lemma ReadSkips(prefix: string, variables: seq<(string, Option<string>)>, variable: (string, Option<string>),
                  paths: Paths.PathMap, noCase: string -> string, parseNumber: string -> Option<real>)
    requires !Selected(prefix, variable) ||
             ExtractPath(variable.0[|prefix|..], paths, noCase).None?
    ensures Read(prefix, variables + [variable], paths, noCase, parseNumber)
         == Read(prefix, variables, paths, noCase, parseNumber)
  {
    assert (variables + [variable])[..|variables|] == variables;
  }

  /**
   * A matched variable is found, cast, at its concrete path of the result,
   * and every value of the earlier variables on a diverging path survives.
   */
  lemma ReadWrites(prefix: string, variables: seq<(string, Option<string>)>, variable: (string, Option<string>),
                   paths: Paths.PathMap, noCase: string -> string, parseNumber: string -> Option<real>,
                   q: seq<string>, w: Value)
    requires Selected(prefix, variable)
    requires ExtractPath(variable.0[|prefix|..], paths, noCase).Some?
    requires Read(prefix, variables + [variable], paths, noCase, parseNumber).Success?
    ensures var (path, hint) := ExtractPath(variable.0[|prefix|..], paths, noCase).value;
      var before := Read(prefix, variables, paths, noCase, parseNumber);
      var after := Read(prefix, variables + [variable], paths, noCase, parseNumber);
      && before.Success?
      && At(Obj(after.value), Split(path, '.')) == Some(Cast(variable.1.value, hint, parseNumber))
      && (At(Obj(before.value), q) == Some(w) && Diverges(q, Split(path, '.')) ==>
            At(Obj(after.value), q) == Some(w))
  {
    assert (variables + [variable])[..|variables|] == variables;
    var (path, hint) := ExtractPath(variable.0[|prefix|..], paths, noCase).value;
    var before := Read(prefix, variables, paths, noCase, parseNumber);
    if At(Obj(before.value), q) == Some(w) && Diverges(q, Split(path, '.')) {
      SetInPreserves(Obj(before.value), Split(path, '.'), Cast(variable.1.value, hint, parseNumber), path, q, w);
    }
  }

  /** The provider's options; each absent one takes its default. */
  datatype EnvOptions = EnvOptions(prefix: Option<string>, variables: Option<seq<(string, Option<string>)>>)

  /** `read` with the defaults applied: no prefix, and the process environment. */
  function ReadWithOptions(options: EnvOptions, processEnv: seq<(string, Option<string>)>, paths: Paths.PathMap,
                           noCase: string -> string, parseNumber: string -> Option<real>): Result<RawConfig, Failure>
  {
    var prefix := if options.prefix.Some? then options.prefix.value else "";
    var variables := if options.variables.Some? then options.variables.value else processEnv;
    Read(prefix, variables, paths, noCase, parseNumber)
  }

  /**
   * The defaults of the options: with neither option the process environment
   * is read with the empty prefix; an absent prefix reads like the empty one;
   * an explicit variable list leaves the process environment unread.
   */
  lemma ReadWithOptionsDefaults(options: EnvOptions, processEnv: seq<(string, Option<string>)>,
                                otherEnv: seq<(string, Option<string>)>, paths: Paths.PathMap,
                                noCase: string -> string, parseNumber: string -> Option<real>)
    ensures ReadWithOptions(EnvOptions(None, None), processEnv, paths, noCase, parseNumber)
         == Read("", processEnv, paths, noCase, parseNumber)
    ensures ReadWithOptions(EnvOptions(None, options.variables), processEnv, paths, noCase, parseNumber)
         == ReadWithOptions(EnvOptions(Some(""), options.variables), processEnv, paths, noCase, parseNumber)
    ensures options.variables.Some? ==>
      ReadWithOptions(options, processEnv, paths, noCase, parseNumber)
        == ReadWithOptions(options, otherEnv, paths, noCase, parseNumber)
  {
  }

  /** Text before the first placeholder passes through a substitution unchanged. */
  lemma {:induction false} SubstituteSkip(a: string, b: string, indices: seq<string>)
    requires !Contains(a, '#')
    ensures Substitute(a + b, indices) == a + Substitute(b, indices)
    decreases |a|
  {
    if a == [] {
      assert a + b == b;
    } else {
      assert (a + b)[1..] == a[1..] + b;
      assert a[0] != '#';
      assert !Contains(a[1..], '#') by {
        forall i | 0 <= i < |a[1..]| ensures a[1..][i] != '#' {
          assert a[1..][i] == a[i + 1];
        }
      }
      SubstituteSkip(a[1..], b, indices);
      assert [a[0]] + (a[1..] + Substitute(b, indices)) == a + Substitute(b, indices);
    }
  }

}

=== FILE: env_example.dfy ===
/**
 * A worked example of the environment provider's array-index matching,
 * following the environment-variable test of the repository.
 */
module EnvExample {
  import opened Wrappers
  import opened Strings
  import Paths
  import opened Env

  /** A string that agrees with the normalisation character by character is the normalisation. */
  lemma NormalizedAs(key: string, l: string)
    requires |l| == |key|
    requires forall i :: 0 <= i < |key| ==> l[i] == (if key[i] == '_' then '.' else LowerChar(key[i]))
    ensures NormalizeKey(key) == l
  {
  }

  /** Normalising distributes over an underscore: it becomes a `.`. */
  lemma NormalizeKeyUnderscore(a: string, b: string)
    ensures NormalizeKey(a + "_" + b) == NormalizeKey(a) + "." + NormalizeKey(b)
  {
    var s := a + "_" + b;
    var r := NormalizeKey(a) + "." + NormalizeKey(b);
    forall i | 0 <= i < |s| ensures r[i] == (if s[i] == '_' then '.' else LowerChar(s[i])) {
      UnderscoreAt(a, b, i);
    }
    NormalizedAs(s, r);
  }

  /** One character of the underscore-joined key and of the joined normalisations. */
  lemma UnderscoreAt(a: string, b: string, i: nat)
    requires i < |a| + 1 + |b|
    ensures var s, r := a + "_" + b, NormalizeKey(a) + "." + NormalizeKey(b);
      r[i] == (if s[i] == '_' then '.' else LowerChar(s[i]))
  {
    var na, nb := NormalizeKey(a), NormalizeKey(b);
    ConcatAt(a, '_', b, i);
    ConcatAt(na, '.', nb, i);
  }

  /** Indexing into `x`, one separator, then `z`. */
  lemma ConcatAt<T>(x: seq<T>, y: T, z: seq<T>, i: nat)
    requires i < |x| + 1 + |z|
    ensures (x + [y] + z)[i] == if i < |x| then x[i] else if i == |x| then y else z[i - |x| - 1]
  {
  }

  /** The variable name is its four words joined with `_`. */
  lemma KeyWords()
    ensures "OBJECT" + "_" + ("ARRAY" + "_" + ("0" + "_" + "KEY4")) == "OBJECT_ARRAY_0_KEY4"
  {
  }

  /** The first word of the variable name, lower-cased. */
  lemma FirstWordLowered()
    ensures NormalizeKey("OBJECT") == "object"
  {
    assert LowerChar('O') == 'o' && LowerChar('B') == 'b' && LowerChar('J') == 'j';
    assert LowerChar('E') == 'e' && LowerChar('C') == 'c' && LowerChar('T') == 't';
    NormalizedAs("OBJECT", "object");
  }

  /** The second word of the variable name, lower-cased. */
  lemma SecondWordLowered()
    ensures NormalizeKey("ARRAY") == "array"
  {
    assert LowerChar('A') == 'a' && LowerChar('R') == 'r' && LowerChar('Y') == 'y';
    NormalizedAs("ARRAY", "array");
  }

  /** The remaining words, lower-cased. */
  lemma LastWordsLowered()
    ensures NormalizeKey("0") == "0" && NormalizeKey("KEY4") == "key4"
  {
  }

  /** The normalised key splits back into its four segments. */
  lemma KeySegments()
    ensures Join(["object", "array", "0", "key4"], '.') == "object" + "." + ("array" + "." + ("0" + "." + "key4"))
    ensures Split(Join(["object", "array", "0", "key4"], '.'), '.') == ["object", "array", "0", "key4"]
  {
    var keys := ["object", "array", "0", "key4"];
    assert forall i :: 0 <= i < |keys| ==> !Contains(keys[i], '.');
    SplitJoin(keys, '.');
  }

  /** `OBJECT_ARRAY_0_KEY4` normalises to `object.array.0.key4`, the join of four segments. */
  lemma ExampleKey()
    ensures NormalizeKey("OBJECT_ARRAY_0_KEY4") == Join(["object", "array", "0", "key4"], '.')
    ensures Split(NormalizeKey("OBJECT_ARRAY_0_KEY4"), '.') == ["object", "array", "0", "key4"]
  {
    KeyWords();
    FirstWordLowered();
    SecondWordLowered();
    LastWordsLowered();
    NormalizeKeyUnderscore("0", "KEY4");
    NormalizeKeyUnderscore("ARRAY", "0" + "_" + "KEY4");
    NormalizeKeyUnderscore("OBJECT", "ARRAY" + "_" + ("0" + "_" + "KEY4"));
    KeySegments();
  }

  /** The schema path is three segments joined with `.`. */
  lemma NameWords()
    ensures "objectArray" + "." + ("#" + "." + "key4") == "objectArray.#.key4"
    ensures Join(["objectArray", "#", "key4"], '.') == "objectArray" + "." + ("#" + "." + "key4")
  {
  }

  /** The schema path splits into `objectArray`, `#`, `key4`. */
  lemma NameSegments()
    ensures Split("objectArray.#.key4", '.') == ["objectArray", "#", "key4"]
  {
    var parts := ["objectArray", "#", "key4"];
    NameWords();
    assert forall i :: 0 <= i < |parts| ==> !Contains(parts[i], '.');
    SplitJoin(parts, '.');
  }

  /** Joining `object.array` with the rest is joining its two words with the rest. */
  lemma SearchWords()
    ensures Join(["object.array", "#", "key4"], '.') == Join(["object", "array", "#", "key4"], '.')
  {
    assert Join(["object.array", "#", "key4"], '.') == "object.array" + "." + ("#" + "." + "key4");
    assert Join(["object", "array", "#", "key4"], '.') == "object" + "." + ("array" + "." + ("#" + "." + "key4"));
  }

  /** The normalised schema path splits into four segments. */
  lemma SearchSegments()
    ensures Split(Join(["object", "array", "#", "key4"], '.'), '.') == ["object", "array", "#", "key4"]
  {
    var search := ["object", "array", "#", "key4"];
    assert forall i :: 0 <= i < |search| ==> !Contains(search[i], '.');
    SplitJoin(search, '.');
  }

  /** `noCase` splits `objectArray` and keeps `key4`; the `#` segment stays. */
  lemma NormalizedSegments(noCase: string -> string)
    requires noCase("objectArray") == "object.array" && noCase("key4") == "key4"
    ensures NormalizeSegments(["objectArray", "#", "key4"], noCase) == ["object.array", "#", "key4"]
  {
    var normalized := NormalizeSegments(["objectArray", "#", "key4"], noCase);
    assert |normalized| == 3;
    assert normalized[0] == "object.array" && normalized[1] == "#" && normalized[2] == "key4";
  }

  /** The schema path `objectArray.#.key4` normalises to `object.array.#.key4`. */
  lemma ExampleName(noCase: string -> string)
    requires noCase("objectArray") == "object.array" && noCase("key4") == "key4"
    ensures NormalizeName("objectArray.#.key4", noCase) == Join(["object", "array", "#", "key4"], '.')
    ensures Split(NormalizeName("objectArray.#.key4", noCase), '.') == ["object", "array", "#", "key4"]
  {
    NameSegments();
    NormalizedSegments(noCase);
    SearchWords();
    SearchSegments();
  }

  /** Every schema segment accepts its key segment, `#` accepting `0`. */
  lemma ExampleSegmentsMatch()
    ensures var search, keys := ["object", "array", "#", "key4"], ["object", "array", "0", "key4"];
      forall i :: 0 <= i < 4 ==> SegmentMatches(search[i], keys[i])
  {
    assert IsDigits("0");
  }

  /** The captured index is `0`. */
  lemma ExampleCaptured()
    ensures Captured(["object", "array", "#", "key4"], ["object", "array", "0", "key4"]) == ["0"]
  {
    assert IsDigits("0");
  }

  /** The captured index fills the placeholder of the schema path. */
  lemma ExampleSubstitution()
    ensures Substitute("objectArray.#.key4", Captured(["object", "array", "#", "key4"], ["object", "array", "0", "key4"]))
         == "objectArray.0.key4"
  {
    ExampleCaptured();
    SubstituteParts();
    SubstituteSkip("objectArray.", "#.key4", ["0"]);
    SubstituteNone(".key4");
  }

  /** The pieces of the substitution, spelled out. */
  lemma SubstituteParts()
    ensures !Contains("objectArray.", '#')
    ensures "objectArray." + "#.key4" == "objectArray.#.key4"
    ensures "objectArray." + ("0" + ".key4") == "objectArray.0.key4"
    ensures Substitute("#.key4", ["0"]) == "0" + Substitute(".key4", [])
  {
  }

  /**
   * An entry with a `#` segment, whose segments differ from the key's but
   * each accept the key's, is the one-entry table's match: its path with the
   * captured digit strings substituted, and its hint.
   */
  lemma InjectedExtract(key: string, name: string, hint: Paths.Hint, noCase: string -> string,
                        search: seq<string>, keys: seq<string>, h: nat)
    requires Split(NormalizeName(name, noCase), '.') == search && Split(NormalizeKey(key), '.') == keys
    requires |search| == |keys| && search != keys && h < |search| && search[h] == "#"
    requires forall i :: 0 <= i < |search| ==> SegmentMatches(search[i], keys[i])
    ensures ExtractPath(key, Paths.PathMap([(name, hint)]), noCase)
         == Some((Substitute(name, Captured(search, keys)), hint))
  {
    var nn, nk := NormalizeName(name, noCase), NormalizeKey(key);
    assert nn != nk;
    assert Contains(search[h], '#') by {
      assert search[h][0] == '#';
    }
    JoinSplit(nn, '.');
    ContainsJoined(search, '.', h, '#');
    MatchEntryCharacterized(nk, (name, hint), noCase);
  }

  /**
   * The environment example: with `noCase` splitting `objectArray` into
   * `object.array`, the variable `OBJECT_ARRAY_0_KEY4` is found at
   * `objectArray.0.key4` through the table entry `objectArray.#.key4`.
   */
  lemma ExtractPathExample(noCase: string -> string)
    requires noCase("objectArray") == "object.array" && noCase("key4") == "key4"
    ensures ExtractPath("OBJECT_ARRAY_0_KEY4", Paths.PathMap([("objectArray.#.key4", Paths.StringHint)]), noCase)
         == Some(("objectArray.0.key4", Paths.StringHint))
  {
    var search, keys := ["object", "array", "#", "key4"], ["object", "array", "0", "key4"];
    ExampleKey();
    ExampleName(noCase);
    ExampleSegmentsMatch();
    ExampleSubstitution();
    assert search[2] != keys[2];
    InjectedExtract("OBJECT_ARRAY_0_KEY4", "objectArray.#.key4", Paths.StringHint, noCase, search, keys, 2);
  }

  /** A character of one piece occurs in the join of the pieces. */
  lemma {:induction false} ContainsJoined(parts: seq<string>, d: char, k: nat, c: char)
    requires k < |parts| && Contains(parts[k], c)
    ensures Contains(Join(parts, d), c)
    decreases |parts|
  {
    if |parts| > 1 {
      var rest := Join(parts[1..], d);
      assert Join(parts, d) == parts[0] + [d] + rest;
      if k == 0 {
        var i :| 0 <= i < |parts[0]| && parts[0][i] == c;
        assert Join(parts, d)[i] == c;
      } else {
        ContainsJoined(parts[1..], d, k - 1, c);
        var i :| 0 <= i < |rest| && rest[i] == c;
        assert Join(parts, d)[|parts[0]| + 1 + i] == c;
      }
    }
  }
}

=== FILE: errors.dfy ===
/**
 * The ways the configuration core can fail. `Error` is a thrown JavaScript
 * `Error` carrying its exact message; `AssertionFailure` is a failed
 * `node:assert` check, a programming-time contract violation rather than a
 * user-facing error; `TypeError` is the strict-mode error raised when a value
 * is written below a primitive.
 */
module Errors {

  datatype Assertion =
    | UnsupportedType(className: string)  // `assert.fail` in the type extractor
    | MissingUnionHint                    // `assert(typeHint)` after an empty union
    | NoLoader(extension: string)         // `assert.fail` when no file loader matches

  datatype Failure =
    | Error(message: string)
    | AssertionFailure(assertion: Assertion)
    | TypeError(path: string)
    | IndexOnArray(path: string)          // a non-numeric key used on an array container
}

=== FILE: files.dfy ===
/**
 * The pure parts of `FileConfigProvider` (src/provider/file.ts): the loader
 * table and the extension list derived from it, the candidate file names,
 * the choice of loader by extension, and the merge-with-object-check loop of
 * `read`. Which files exist and what each one parses to are inputs.
 */
module Files {
  import opened Wrappers
  import opened Errors
  import opened Strings
  import opened Values
  import opened Helpers

  /** A loader is known here by the extensions it claims; its `load` is an input. */
  datatype Loader = Loader(extensions: seq<string>)

  /** The loaders in the order `getLoader` tries them. */
  const Loaders: seq<Loader> := [
    Loader(["js", "ts"]),
    Loader(["json"]),
    Loader(["yaml", "yml"]),
    Loader(["toml"]),
    Loader(["json5"])
  ]

  /** The `reduce` that appends every loader's extensions, in loader order. */
  function ConcatExtensions(loaders: seq<Loader>): (r: seq<string>)
    ensures forall e :: e in r <==> exists i :: 0 <= i < |loaders| && e in loaders[i].extensions
  {
    if loaders == [] then []
    else
      var rest := ConcatExtensions(loaders[1..]);
      assert forall i :: 1 <= i < |loaders| ==> loaders[i] == loaders[1..][i - 1];
      loaders[0].extensions + rest
  }

  function AllowedExtensions(): seq<string> {
    ConcatExtensions(Loaders)
  }

  /** The seven extensions, in the order the candidate names use them. */
  lemma AllowedExtensionsInOrder()
    ensures AllowedExtensions() == ["js", "ts", "json", "yaml", "yml", "toml", "json5"]
  {
    assert Loaders[1..][1..][1..][1..][1..] == [];
  }

  /* ---------- Candidate names ---------- */

  function BaseNames(env: string): seq<string> {
    ["default", env, "local", "local-" + env]
  }

  /** Every extension appended to one base name, in extension order. */
  function WithExtensions(base: string, exts: seq<string>): (r: seq<string>)
    ensures |r| == |exts|
    ensures forall j :: 0 <= j < |exts| ==> r[j] == base + "." + exts[j]
  {
    if exts == [] then [] else [base + "." + exts[0]] + WithExtensions(base, exts[1..])
  }

  /** The nested loops of `getAllowedFileNames`: base names outside, extensions inside. */
  function Product(bases: seq<string>, exts: seq<string>): seq<string> {
    if bases == [] then []
    else WithExtensions(bases[0], exts) + Product(bases[1..], exts)
  }

  /** The product holds `|bases| * |exts|` names. */
  lemma {:induction false} ProductLength(bases: seq<string>, exts: seq<string>)
    ensures |Product(bases, exts)| == |bases| * |exts|
  {
    if bases != [] {
      ProductLength(bases[1..], exts);
      MulPred(|bases|, |exts|);
    }
  }

  lemma MulPred(i: nat, n: nat)
    requires 0 < i
    ensures i * n == n + (i - 1) * n
  {
  }

  /** Name `i * |exts| + j` of the product is base name `i` with extension `j`. */
  lemma ProductAt(bases: seq<string>, exts: seq<string>, i: nat, j: nat)
    requires i < |bases| && j < |exts|
    ensures i * |exts| + j < |Product(bases, exts)|
    ensures Product(bases, exts)[i * |exts| + j] == bases[i] + "." + exts[j]
  {
    RowStartIsProduct(i, |exts|);
    ProductRow(bases, exts, i, j);
  }

  /** Where row `i` of the product starts, counted without multiplication. */
  function RowStart(i: nat, n: nat): nat {
    if i == 0 then 0 else n + RowStart(i - 1, n)
  }

  lemma {:induction false} RowStartIsProduct(i: nat, n: nat)
    ensures RowStart(i, n) == i * n
  {
    if i > 0 {
      RowStartIsProduct(i - 1, n);
      MulPred(i, n);
    }
  }

  lemma {:induction false} ProductRow(bases: seq<string>, exts: seq<string>, i: nat, j: nat)
    requires i < |bases| && j < |exts|
    ensures RowStart(i, |exts|) + j < |Product(bases, exts)|
    ensures Product(bases, exts)[RowStart(i, |exts|) + j] == bases[i] + "." + exts[j]
  {
    if i == 0 {
      ProductHead(bases, exts, j);
      assert RowStart(i, |exts|) + j == j;
    } else {
      var rest := bases[1..];
      assert rest[i - 1] == bases[i];
      ProductRow(rest, exts, i - 1, j);
      ProductRowNext(bases, exts, i, j);
      assert Product(rest, exts)[RowStart(i - 1, |exts|) + j] == bases[i] + "." + exts[j];
    }
  }

  /** Row `i` of the product is row `i - 1` of the product of the remaining base names. */
  lemma ProductRowNext(bases: seq<string>, exts: seq<string>, i: nat, j: nat)
    requires 0 < i < |bases| && j < |exts|
    requires RowStart(i - 1, |exts|) + j < |Product(bases[1..], exts)|
    ensures RowStart(i, |exts|) + j < |Product(bases, exts)|
    ensures Product(bases, exts)[RowStart(i, |exts|) + j] == Product(bases[1..], exts)[RowStart(i - 1, |exts|) + j]
  {
    var k := RowStart(i - 1, |exts|) + j;
    ProductTail(bases, exts, k);
    assert RowStart(i, |exts|) + j == |exts| + k;
  }

  lemma ProductHead(bases: seq<string>, exts: seq<string>, j: nat)
    requires 0 < |bases| && j < |exts|
    ensures j < |Product(bases, exts)|
    ensures Product(bases, exts)[j] == bases[0] + "." + exts[j]
  {
    var head := WithExtensions(bases[0], exts);
    assert Product(bases, exts) == head + Product(bases[1..], exts);
  }

  lemma ProductTail(bases: seq<string>, exts: seq<string>, k: nat)
    requires 0 < |bases| && k < |Product(bases[1..], exts)|
    ensures |exts| + k < |Product(bases, exts)|
    ensures Product(bases, exts)[|exts| + k] == Product(bases[1..], exts)[k]
  {
    var head := WithExtensions(bases[0], exts);
    assert Product(bases, exts) == head + Product(bases[1..], exts);
  }

  function AllowedFileNames(env: string): seq<string> {
    Product(BaseNames(env), AllowedExtensions())
  }

  /**
   * The 28 candidates: name `i * 7 + j` is base name `i` (`default`, `env`,
   * `local`, `local-env`) with extension `j`.
   */
  lemma AllowedFileNamesLayout(env: string)
    ensures var names := AllowedFileNames(env);
      && |names| == 28
      && forall i, j :: 0 <= i < 4 && 0 <= j < 7 ==>
           names[i * 7 + j] == BaseNames(env)[i] + "." + AllowedExtensions()[j]
  {
    var bases, exts := BaseNames(env), AllowedExtensions();
    ExtensionCount();
    assert |bases| == 4;
    ProductLength(bases, exts);
    forall i, j | 0 <= i < 4 && 0 <= j < 7
      ensures Product(bases, exts)[i * 7 + j] == bases[i] + "." + exts[j]
    {
      ProductAt(bases, exts, i, j);
    }
  }

  lemma ExtensionCount()
    ensures |AllowedExtensions()| == 7
  {
    AllowedExtensionsInOrder();
  }

  /* ---------- Paths and extensions ---------- */

  /** `path.join(base, name)`, without normalisation. */
  function JoinPath(base: string, name: string): string {
    base + "/" + name
  }

  /** The `basePath` option, defaulting to `<cwd>/config`. */
  function BasePath(basePath: Option<string>, cwd: string): (r: string)
    ensures basePath.Some? ==> r == basePath.value
    ensures basePath.None? ==> StartsWith(r, cwd) && r[|cwd|..] == "/config"
  {
    if basePath.Some? then basePath.value else cwd + "/config"
  }

  /** The last path component: everything after the final `/`. */
  function BaseName(path: string): (r: string)
    ensures !Contains(r, '/')
    ensures |r| <= |path| && path[|path| - |r|..] == r
  {
    if path == [] || path[|path| - 1] == '/' then []
    else
      var r := BaseName(path[..|path| - 1]);
      var t := r + [path[|path| - 1]];
      assert !Contains(t, '/') by {
        forall i | 0 <= i < |t| ensures t[i] != '/' {
          if i < |r| {
            assert t[i] == r[i];
          }
        }
      }
      t
  }

  /** The index of the last occurrence of `c` in `s`, if any. */
  function LastIndexOf(s: string, c: char): (r: Option<nat>)
    ensures r.None? <==> !Contains(s, c)
    ensures r.Some? ==> r.value < |s| && s[r.value] == c &&
                        (forall j :: r.value < j < |s| ==> s[j] != c)
  {
    if s == [] then None
    else if s[|s| - 1] == c then Some(|s| - 1)
    else
      var r := LastIndexOf(s[..|s| - 1], c);
      assert forall j :: 0 <= j < |s| - 1 ==> s[..|s| - 1][j] == s[j];
      r
  }

  /**
   * Node's `path.extname` on a path without trailing separators: from the
   * last `.` of the last component to its end, or empty when that component
   * has no `.`, has its only meaningful `.` in front, or is `..`.
   */
  function ExtName(path: string): (r: string)
    ensures r == "" || (r[0] == '.' && !Contains(r[1..], '.'))
  {
    var b := BaseName(path);
    match LastIndexOf(b, '.')
    case None => ""
    case Some(d) =>
      if d == 0 || b == ".." then ""
      else
        var e := b[d + 1..];
        assert forall j :: 0 <= j < |e| ==> e[j] == b[d + 1 + j];
        b[d..]
  }

  /** `extname(path).substring(1)`. */
  function Extension(path: string): string {
    var e := ExtName(path);
    if e == "" then "" else e[1..]
  }

  /* ---------- Loader choice ---------- */

  /** The first loader, from `loaders`, that claims extension `ext`. */
  function FindLoader(loaders: seq<Loader>, ext: string): (r: Option<nat>)
    ensures r.None? <==> forall i :: 0 <= i < |loaders| ==> ext !in loaders[i].extensions
    ensures r.Some? ==> r.value < |loaders| && ext in loaders[r.value].extensions &&
                        (forall i :: 0 <= i < r.value ==> ext !in loaders[i].extensions)
  {
    if loaders == [] then None
    else if ext in loaders[0].extensions then Some(0)
    else
      var r := FindLoader(loaders[1..], ext);
      assert forall i :: 1 <= i < |loaders| ==> loaders[i] == loaders[1..][i - 1];
      if r.Some? then Some(r.value + 1) else None
  }

  /**
   * `getLoader`: the first loader claiming the path's extension; when none
   * does, the `assert.fail` naming the extension.
   */
  function GetLoader(path: string): (r: Result<Loader, Failure>)
    ensures r.Success? <==> Extension(path) in AllowedExtensions()
    ensures r.Success? ==>
      (exists i :: 0 <= i < |Loaders| && r.value == Loaders[i] &&
                   Extension(path) in Loaders[i].extensions &&
                   (forall j :: 0 <= j < i ==> Extension(path) !in Loaders[j].extensions))
    ensures r.Failure? ==> r.error == AssertionFailure(NoLoader(Extension(path)))
  {
    var ext := Extension(path);
    match FindLoader(Loaders, ext)
    case Some(i) => Success(Loaders[i])
    case None => Failure(AssertionFailure(NoLoader(ext)))
  }

  lemma {:induction false} BaseNameAppend(a: string, c: string)
    requires !Contains(c, '/')
    ensures BaseName(a + c) == BaseName(a) + c
    decreases |c|
  {
    if c != [] {
      var init, last := c[..|c| - 1], c[|c| - 1];
      ContainsInit(c, '/');
      BaseNameAppend(a, init);
      BaseNameAppendStep(a, init, last);
      assert init + [last] == c;
    } else {
      assert a + c == a;
    }
  }

  lemma ContainsInit(s: string, x: char)
    requires s != [] && !Contains(s, x)
    ensures !Contains(s[..|s| - 1], x)
  {
    var init := s[..|s| - 1];
    forall j | 0 <= j < |init| ensures init[j] != x {
      assert init[j] == s[j];
    }
  }

  lemma BaseNameAppendStep(a: string, init: string, last: char)
    requires last != '/' && BaseName(a + init) == BaseName(a) + init
    ensures BaseName(a + (init + [last])) == BaseName(a) + (init + [last])
  {
    assert a + (init + [last]) == (a + init) + [last];
    BaseNameSnoc(a + init, last);
    Associative(BaseName(a), init, [last]);
  }

  lemma BaseNameSnoc(s: string, x: char)
    requires x != '/'
    ensures BaseName(s + [x]) == BaseName(s) + [x]
  {
    var t := s + [x];
    assert t[..|t| - 1] == s;
  }

  lemma {:induction false} BaseNameAfterSlash(a: string, b: string)
    ensures BaseName(a + "/" + b) == BaseName(b)
    decreases |b|
  {
    if b == [] {
      assert a + "/" + b == a + "/";
    } else if b[|b| - 1] == '/' {
      assert (a + "/" + b)[|a + "/" + b| - 1] == '/';
    } else {
      var last := b[|b| - 1];
      assert (a + "/" + b)[..|a + "/" + b| - 1] == a + "/" + b[..|b| - 1];
      BaseNameAfterSlash(a, b[..|b| - 1]);
    }
  }

  /** The last `c` of `s + [c] + t` is the one after `s` when `t` has none. */
  lemma {:induction false} LastIndexAfter(s: string, t: string, c: char)
    requires !Contains(t, c)
    ensures LastIndexOf(s + [c] + t, c) == Some(|s|)
    decreases |t|
  {
    var u := s + [c] + t;
    if t == [] {
      assert u == s + [c];
      assert u[|u| - 1] == c;
    } else {
      var init := t[..|t| - 1];
      assert u[|u| - 1] == t[|t| - 1];
      assert t[|t| - 1] != c;
      assert u[..|u| - 1] == s + [c] + init;
      assert !Contains(init, c) by {
        forall j | 0 <= j < |init| ensures init[j] != c {
          assert init[j] == t[j];
        }
      }
      LastIndexAfter(s, init, c);
    }
  }

  /** The last `.` of `x + "." + ext` is the one before `ext` when `ext` has none. */
  lemma LastDot(x: string, ext: string)
    requires !Contains(ext, '.')
    ensures LastIndexOf(x + "." + ext, '.') == Some(|x|)
  {
    assert x + "." + ext == x + ['.'] + ext;
    LastIndexAfter(x, ext, '.');
  }

  /** The last component of `dir/base.ext` is that of `base`, followed by `.ext`. */
  lemma BaseNameOfCandidate(dir: string, base: string, ext: string)
    requires !Contains(ext, '/')
    ensures BaseName(JoinPath(dir, base + "." + ext)) == BaseName(base) + "." + ext
  {
    var tail := "." + ext;
    assert !Contains(tail, '/') by {
      forall j | 0 <= j < |tail| ensures tail[j] != '/' {
        if j > 0 {
          assert tail[j] == ext[j - 1];
        }
      }
    }
    var path := JoinPath(dir, base + "." + ext);
    assert path == dir + "/" + (base + tail);
    BaseNameAfterSlash(dir, base + tail);
    assert BaseName(path) == BaseName(base + tail);
    BaseNameAppend(base, tail);
    Associative(BaseName(base), ".", ext);
  }

  lemma EmptyLeft(a: string, b: string)
    requires a == ""
    ensures a + b == b
  {
  }

  lemma Associative(a: string, b: string, c: string)
    ensures a + (b + c) == a + b + c
  {
  }

  /** A path whose last component is `x.ext`, with `x` non-empty, has extension `ext`. */
  lemma ExtensionOfComponent(path: string, x: string, ext: string)
    requires BaseName(path) == x + "." + ext
    requires x != "" && ext != "" && !Contains(ext, '.')
    ensures Extension(path) == ext
  {
    var b := x + "." + ext;
    LastDot(x, ext);
    assert b != ".." by {
      assert |b| > 2;
    }
    assert b[|x|..] == "." + ext;
    assert ExtName(path) == "." + ext;
  }

  /**
   * The extension of `dir/base.ext` is `ext` whenever the last component of
   * `base` is non-empty and `ext` is free of `.` and `/`.
   */
  lemma ExtensionOfCandidate(dir: string, base: string, ext: string)
    requires BaseName(base) != ""
    requires ext != "" && !Contains(ext, '.') && !Contains(ext, '/')
    ensures Extension(JoinPath(dir, base + "." + ext)) == ext
  {
    BaseNameOfCandidate(dir, base, ext);
    ExtensionOfComponent(JoinPath(dir, base + "." + ext), BaseName(base), ext);
  }

  /** No allowed extension holds a `.` or a `/`, and none is empty. */
  lemma ExtensionsPlain()
    ensures forall j :: 0 <= j < |AllowedExtensions()| ==>
      AllowedExtensions()[j] != "" && !Contains(AllowedExtensions()[j], '.') &&
      !Contains(AllowedExtensions()[j], '/')
  {
    AllowedExtensionsInOrder();
  }

  /**
   * For every candidate name under any directory a loader exists, so the
   * `assert.fail` of `getLoader` cannot be reached, provided `env` is
   * non-empty and does not end in `/`.
   */
  lemma {:induction false} LoaderForEveryCandidate(dir: string, env: string, name: string)
    requires env != "" && env[|env| - 1] != '/'
    requires name in AllowedFileNames(env)
    ensures GetLoader(JoinPath(dir, name)).Success?
  {
    var bases := BaseNames(env);
    var exts := AllowedExtensions();
    var i, j := ProductMemberOf(bases, exts, name);
    ExtensionsPlain();
    BaseNamesNonEmpty(env);
    ExtensionOfCandidate(dir, bases[i], exts[j]);
    assert exts[j] in exts;
  }

  /** A path that does not end in `/` has a non-empty last component. */
  lemma BaseNameNonEmpty(s: string)
    requires s != "" && s[|s| - 1] != '/'
    ensures BaseName(s) != ""
  {
  }

  lemma BaseNamesNonEmpty(env: string)
    requires env != "" && env[|env| - 1] != '/'
    ensures forall i :: 0 <= i < 4 ==> BaseName(BaseNames(env)[i]) != ""
  {
    var names := BaseNames(env);
    forall i | 0 <= i < 4 ensures BaseName(names[i]) != "" {
      var s := names[i];
      assert s != "" && s[|s| - 1] != '/' by {
        if i == 3 {
          assert s == "local-" + env;
          assert s[|s| - 1] == env[|env| - 1];
        }
      }
      BaseNameNonEmpty(s);
    }
  }

  /**
   * With an empty `env`, `.ext` is a candidate name for every allowed
   * extension, and no loader claims it: its extension is empty.
   */
  lemma EmptyEnvHasNoLoader(dir: string, env: string, ext: string)
    requires env == "" && ext in AllowedExtensions()
    ensures "." + ext in AllowedFileNames(env)
    ensures GetLoader(JoinPath(dir, "." + ext)) == Failure(AssertionFailure(NoLoader("")))
  {
    CandidateMember(env, 1, ext);
    assert BaseNames(env)[1] == env;
    Associative(env, ".", ext);
    EmptyLeft(env, "." + ext);
    ExtensionsPlain();
    NoLoaderForDotFile(dir, ext);
  }

  /** Each base name followed by each allowed extension is a candidate. */
  lemma CandidateMember(env: string, i: nat, ext: string)
    requires i < 4 && ext in AllowedExtensions()
    ensures BaseNames(env)[i] + "." + ext in AllowedFileNames(env)
  {
    ProductMember(BaseNames(env), AllowedExtensions(), i, ext);
  }

  lemma {:induction false} ProductMember(bases: seq<string>, exts: seq<string>, i: nat, ext: string)
    requires i < |bases| && ext in exts
    ensures bases[i] + "." + ext in Product(bases, exts)
  {
    var head := WithExtensions(bases[0], exts);
    var rest := Product(bases[1..], exts);
    assert Product(bases, exts) == head + rest;
    if i == 0 {
      var j :| 0 <= j < |exts| && exts[j] == ext;
      assert head[j] == bases[0] + "." + ext;
    } else {
      ProductMember(bases[1..], exts, i - 1, ext);
      assert bases[1..][i - 1] == bases[i];
    }
  }

  /** Every name of the product is some base name with some extension. */
  lemma {:induction false} ProductMemberOf(bases: seq<string>, exts: seq<string>, name: string)
    returns (i: nat, j: nat)
    requires name in Product(bases, exts)
    ensures i < |bases| && j < |exts| && name == bases[i] + "." + exts[j]
  {
    assert bases != [];
    var head := WithExtensions(bases[0], exts);
    var rest := Product(bases[1..], exts);
    assert Product(bases, exts) == head + rest;
    if name in head {
      i := 0;
      j := InWithExtensions(bases[0], exts, name);
    } else {
      assert name in rest;
      var i', j' := ProductMemberOf(bases[1..], exts, name);
      i, j := i' + 1, j';
      assert bases[1..][i'] == bases[i];
    }
  }

  /** Every name of one row is the base name with one of the extensions. */
  lemma InWithExtensions(base: string, exts: seq<string>, name: string) returns (j: nat)
    requires name in WithExtensions(base, exts)
    ensures j < |exts| && name == base + "." + exts[j]
  {
    var row := WithExtensions(base, exts);
    j :| 0 <= j < |row| && row[j] == name;
  }

  lemma NoLoaderForDotFile(dir: string, ext: string)
    requires !Contains(ext, '.') && !Contains(ext, '/')
    ensures GetLoader(JoinPath(dir, "." + ext)) == Failure(AssertionFailure(NoLoader("")))
  {
    DotFileHasNoExtension(dir, ext);
    ExtensionsPlain();
  }

  /** A last component `.ext` counts as a name without an extension. */
  lemma DotFileHasNoExtension(dir: string, ext: string)
    requires !Contains(ext, '.') && !Contains(ext, '/')
    ensures Extension(JoinPath(dir, "." + ext)) == ""
  {
    BaseNameOfCandidate(dir, "", ext);
    assert "" + "." + ext == "." + ext;
    LastDot("", ext);
  }

  /* ---------- Locating and reading ---------- */

  /** The paths of `candidates` that exist, in candidate order. */
  function KeepExisting(candidates: seq<string>, existing: set<string>): (r: seq<string>)
    ensures forall p :: p in r <==> p in candidates && p in existing
    ensures |r| <= |candidates|
  {
    if candidates == [] then []
    else
      var rest := KeepExisting(candidates[1..], existing);
      assert forall p :: p in candidates <==> p == candidates[0] || p in candidates[1..];
      if candidates[0] in existing then [candidates[0]] + rest else rest
  }

  /** Existence filtering distributes over concatenation, so it keeps the candidates' order. */
  lemma {:induction false} KeepExistingAppend(a: seq<string>, b: seq<string>, existing: set<string>)
    ensures KeepExisting(a + b, existing) == KeepExisting(a, existing) + KeepExisting(b, existing)
    decreases |a|
  {
    if a == [] {
      assert a + b == b;
    } else {
      assert (a + b)[1..] == a[1..] + b;
      KeepExistingAppend(a[1..], b, existing);
    }
  }

  function JoinAll(dir: string, names: seq<string>): (r: seq<string>)
    ensures |r| == |names|
    ensures forall i :: 0 <= i < |names| ==> r[i] == JoinPath(dir, names[i])
  {
    if names == [] then [] else [JoinPath(dir, names[0])] + JoinAll(dir, names[1..])
  }

  /** `locateFiles`: the candidate paths under `basePath` that exist, in candidate order. */
  function LocateFiles(env: string, basePath: string, existing: set<string>): (r: seq<string>)
    ensures forall p :: p in r <==> p in existing && exists name :: name in AllowedFileNames(env) && p == JoinPath(basePath, name)
  {
    var candidates := JoinAll(basePath, AllowedFileNames(env));
    var r := KeepExisting(candidates, existing);
    assert forall p :: p in candidates <==> exists name :: name in AllowedFileNames(env) && p == JoinPath(basePath, name) by {
      forall p ensures p in candidates ==> exists name :: name in AllowedFileNames(env) && p == JoinPath(basePath, name) {
        if p in candidates {
          var i :| 0 <= i < |candidates| && candidates[i] == p;
          assert AllowedFileNames(env)[i] in AllowedFileNames(env);
        }
      }
      forall p, name | name in AllowedFileNames(env) && p == JoinPath(basePath, name) ensures p in candidates {
        var i :| 0 <= i < |AllowedFileNames(env)| && AllowedFileNames(env)[i] == name;
        assert candidates[i] == p;
      }
    }
    r
  }

  /** When every candidate exists, the located paths are exactly the candidates, in order. */
  lemma {:induction false} AllExisting(candidates: seq<string>, existing: set<string>)
    requires forall i :: 0 <= i < |candidates| ==> candidates[i] in existing
    ensures KeepExisting(candidates, existing) == candidates
    decreases |candidates|
  {
    if candidates != [] {
      AllExisting(candidates[1..], existing);
    }
  }

  /**
   * One iteration of `read`'s loop: choose the loader, load the file, and
   * insist on a raw config.
   */
  function LoadOne(path: string, load: string -> Result<Value, Failure>): (r: Result<RawConfig, Failure>)
    ensures GetLoader(path).Failure? ==> r == Failure(GetLoader(path).error)
    ensures GetLoader(path).Success? && load(path).Failure? ==> r == Failure(load(path).error)
    ensures GetLoader(path).Success? && load(path).Success? ==>
      if IsRawConfig(load(path).value) then r == Success(load(path).value.fields)
      else r == Failure(Error("Loader did not return an object for " + path))
  {
    var _ :- GetLoader(path);
    var data :- load(path);
    if !IsRawConfig(data) then Failure(Error("Loader did not return an object for " + path))
    else Success(data.fields)
  }

  /** Every path loaded in order; the first failure aborts. */
  function LoadAll(paths: seq<string>, load: string -> Result<Value, Failure>): Result<seq<RawConfig>, Failure> {
    MapAll(paths, path => LoadOne(path, load))
  }

  datatype FileOptions = FileOptions(basePath: Option<string>)

  /**
   * `read`: the located files, loaded in candidate order and deep-merged one
   * after another into an empty record.
   */
  function Read(options: FileOptions, env: string, cwd: string, existing: set<string>,
                load: string -> Result<Value, Failure>): (r: Result<RawConfig, Failure>)
    ensures var paths := LocateFiles(env, BasePath(options.basePath, cwd), existing);
      && (r.Success? <==> LoadAll(paths, load).Success?)
      && (r.Success? ==> r.value == MergeAll(map[], LoadAll(paths, load).value))
  {
    var paths := LocateFiles(env, BasePath(options.basePath, cwd), existing);
    var layers :- LoadAll(paths, load);
    Success(MergeAll(map[], layers))
  }

  /** Without a base path the files are read exactly as under `<cwd>/config`. */
  lemma ReadDefaultBase(env: string, cwd: string, existing: set<string>, load: string -> Result<Value, Failure>)
    ensures Read(FileOptions(None), env, cwd, existing, load)
         == Read(FileOptions(Some(cwd + "/config")), env, cwd, existing, load)
  {
    assert BasePath(None, cwd) == BasePath(Some(cwd + "/config"), cwd);
  }

  /**
   * Precedence among files: a non-object value that file `k` holds at `p`
   * is the value read, unless a later located file reaches `p`.
   */
  lemma LaterFileWins(options: FileOptions, env: string, cwd: string, existing: set<string>,
                      load: string -> Result<Value, Failure>, k: nat, p: seq<string>, v: Value)
    requires Read(options, env, cwd, existing, load).Success?
    requires var paths := LocateFiles(env, BasePath(options.basePath, cwd), existing);
      && k < |paths|
      && Lookup(Obj(LoadOne(paths[k], load).value), p) == Some(v) && !v.Obj?
      && forall j :: k < j < |paths| ==> Untouched(LoadOne(paths[j], load).value, p)
    ensures Lookup(Obj(Read(options, env, cwd, existing, load).value), p) == Some(v)
  {
    var paths := LocateFiles(env, BasePath(options.basePath, cwd), existing);
    var layers := LoadAll(paths, load).value;
    LaterLayerWins(map[], layers, k, p, v);
  }

  /** Filtering splits at any existing candidate: earlier candidates before it, later ones after. */
  lemma KeepExistingAt(c: seq<string>, existing: set<string>, a: nat)
    requires a < |c| && c[a] in existing
    ensures KeepExisting(c, existing)
      == KeepExisting(c[..a], existing) + [c[a]] + KeepExisting(c[a + 1..], existing)
  {
    var tail := [c[a]] + c[a + 1..];
    assert c == c[..a] + tail;
    KeepExistingAppend(c[..a], tail, existing);
    assert tail[1..] == c[a + 1..];
    assert KeepExisting(tail, existing) == [c[a]] + KeepExisting(c[a + 1..], existing);
  }

  /**
   * Located paths keep candidate order: an existing candidate `a` is located
   * at some position `k`, preceded by the existing earlier candidates and
   * followed by the existing later candidates, each in candidate order.
   */
  lemma LocatedAt(env: string, basePath: string, existing: set<string>, a: nat) returns (k: nat)
    requires a < |AllowedFileNames(env)|
    requires JoinPath(basePath, AllowedFileNames(env)[a]) in existing
    ensures k < |LocateFiles(env, basePath, existing)|
    ensures LocateFiles(env, basePath, existing)[k] == JoinAll(basePath, AllowedFileNames(env))[a]
    ensures LocateFiles(env, basePath, existing)[..k] == KeepExisting(JoinAll(basePath, AllowedFileNames(env))[..a], existing)
    ensures LocateFiles(env, basePath, existing)[k + 1..] == KeepExisting(JoinAll(basePath, AllowedFileNames(env))[a + 1..], existing)
  {
    var c := JoinAll(basePath, AllowedFileNames(env));
    var r := LocateFiles(env, basePath, existing);
    assert r == KeepExisting(c, existing);
    k := KeptAt(c, existing, a, r);
  }

  /** The filtered position `k` of an existing entry `a`, with what comes before and after it. */
  lemma KeptAt(c: seq<string>, existing: set<string>, a: nat, r: seq<string>) returns (k: nat)
    requires a < |c| && c[a] in existing && r == KeepExisting(c, existing)
    ensures k < |r| && r[k] == c[a]
    ensures r[..k] == KeepExisting(c[..a], existing)
    ensures r[k + 1..] == KeepExisting(c[a + 1..], existing)
  {
    KeepExistingAt(c, existing, a);
    var before, after := KeepExisting(c[..a], existing), KeepExisting(c[a + 1..], existing);
    k := |before|;
    assert r == before + [c[a]] + after;
    assert r[..k] == before;
    assert r[k + 1..] == after;
  }

  /**
   * When the entries of `r` after `k` are the existing entries of `c` after
   * `a`, entry `j > k` of `r` is an existing entry of `c` after `a`.
   */
  lemma LaterEntry(r: seq<string>, c: seq<string>, existing: set<string>, a: nat, k: nat, j: nat) returns (b: nat)
    requires a < |c| && k < j < |r|
    requires r[k + 1..] == KeepExisting(c[a + 1..], existing)
    ensures a < b < |c| && r[j] == c[b] && c[b] in existing
  {
    var rest, later := r[k + 1..], c[a + 1..];
    var q := r[j];
    assert q == rest[j - k - 1];
    assert q in rest;
    assert q in later && q in existing;
    var m := Position(later, q);
    b := a + 1 + m;
    assert c[b] == later[m];
  }

  /** A position at which `q` occurs in `s`. */
  lemma Position(s: seq<string>, q: string) returns (m: nat)
    requires q in s
    ensures m < |s| && s[m] == q
  {
    m :| 0 <= m < |s| && s[m] == q;
  }

  /** When every file loads, layer `j` is the load of located path `j`. */
  lemma LoadAllAt(paths: seq<string>, load: string -> Result<Value, Failure>, j: nat)
    requires LoadAll(paths, load).Success? && j < |paths|
    ensures LoadOne(paths[j], load).Success?
    ensures |LoadAll(paths, load).value| == |paths|
    ensures LoadAll(paths, load).value[j] == LoadOne(paths[j], load).value
  {
  }

  /**
   * Precedence among candidate names: a non-object value that the file for
   * candidate `a` holds at `p` is the value read, unless an existing file
   * later in candidate order reaches `p`. Candidate `7i + j` is base name `i`
   * with extension `j`, so every `local-<env>` file comes after every `local`
   * file, which comes after every `<env>` file, which comes after every
   * `default` file.
   */
  lemma LaterCandidateWins(options: FileOptions, env: string, cwd: string, existing: set<string>,
                           load: string -> Result<Value, Failure>, a: nat, p: seq<string>, v: Value)
    requires Read(options, env, cwd, existing, load).Success?
    requires var c := JoinAll(BasePath(options.basePath, cwd), AllowedFileNames(env));
      && a < |c| && c[a] in existing && LoadOne(c[a], load).Success?
      && Lookup(Obj(LoadOne(c[a], load).value), p) == Some(v) && !v.Obj?
      && forall b :: (a < b < |c| && c[b] in existing && LoadOne(c[b], load).Success?) ==>
           Untouched(LoadOne(c[b], load).value, p)
    ensures Lookup(Obj(Read(options, env, cwd, existing, load).value), p) == Some(v)
  {
    var base := BasePath(options.basePath, cwd);
    var c := JoinAll(base, AllowedFileNames(env));
    var paths := LocateFiles(env, base, existing);
    var k := LocatedAt(env, base, existing, a);
    assert paths[k] == c[a];
    assert LoadAll(paths, load).Success?;
    LaterPathsUntouched(paths, c, existing, load, a, k, p);
    LaterFileWins(options, env, cwd, existing, load, k, p, v);
  }

  /** The located paths after `k` are later existing candidates, so none of them reaches `p`. */
  lemma LaterPathsUntouched(paths: seq<string>, c: seq<string>, existing: set<string>,
                            load: string -> Result<Value, Failure>, a: nat, k: nat, p: seq<string>)
    requires a < |c| && k < |paths| && LoadAll(paths, load).Success?
    requires paths[k + 1..] == KeepExisting(c[a + 1..], existing)
    requires forall b :: (a < b < |c| && c[b] in existing && LoadOne(c[b], load).Success?) ==>
      Untouched(LoadOne(c[b], load).value, p)
    ensures forall j :: k < j < |paths| ==> Untouched(LoadOne(paths[j], load).value, p)
  {
    forall j | k < j < |paths| ensures Untouched(LoadOne(paths[j], load).value, p) {
      var b := LaterEntry(paths, c, existing, a, k, j);
      LoadAllAt(paths, load, j);
    }
  }

  /** Candidate `21 + j` is `local-<env>` with extension `j`, and these are the last seven. */
  lemma LocalEnvCandidates(env: string)
    ensures |AllowedFileNames(env)| == 28 && |AllowedExtensions()| == 7
    ensures forall j :: 0 <= j < 7 ==>
      AllowedFileNames(env)[21 + j] == "local-" + env + "." + AllowedExtensions()[j]
  {
    AllowedFileNamesLayout(env);
    ExtensionCount();
    assert BaseNames(env)[3] == "local-" + env;
    forall j | 0 <= j < 7 ensures AllowedFileNames(env)[21 + j] == "local-" + env + "." + AllowedExtensions()[j] {
      assert AllowedFileNames(env)[3 * 7 + j] == BaseNames(env)[3] + "." + AllowedExtensions()[j];
    }
  }

  /**
   * A non-object value that `local-<env>.<ext>` holds at `p` is the value
   * read, unless a `local-<env>` file with a later extension reaches `p`:
   * no other file overrides it.
   */
  lemma LocalEnvFileWins(options: FileOptions, env: string, cwd: string, existing: set<string>,
                         load: string -> Result<Value, Failure>, j: nat, p: seq<string>, v: Value)
    requires Read(options, env, cwd, existing, load).Success?
    requires j < |AllowedExtensions()|
    requires var base := BasePath(options.basePath, cwd);
      var exts := AllowedExtensions();
      var path := JoinPath(base, "local-" + env + "." + exts[j]);
      && path in existing && LoadOne(path, load).Success?
      && Lookup(Obj(LoadOne(path, load).value), p) == Some(v) && !v.Obj?
      && forall j' :: (j < j' < |exts| && JoinPath(base, "local-" + env + "." + exts[j']) in existing &&
                       LoadOne(JoinPath(base, "local-" + env + "." + exts[j']), load).Success?) ==>
           Untouched(LoadOne(JoinPath(base, "local-" + env + "." + exts[j']), load).value, p)
    ensures Lookup(Obj(Read(options, env, cwd, existing, load).value), p) == Some(v)
  {
    var base := BasePath(options.basePath, cwd);
    var names := AllowedFileNames(env);
    var exts := AllowedExtensions();
    var c := JoinAll(base, names);
    LocalEnvCandidates(env);
    var a := 21 + j;
    assert c[a] == JoinPath(base, names[a]);
    assert names[a] == "local-" + env + "." + exts[j];
    forall b | a < b < |c| && c[b] in existing && LoadOne(c[b], load).Success?
      ensures Untouched(LoadOne(c[b], load).value, p)
    {
      var j' := b - 21;
      assert c[b] == JoinPath(base, names[b]);
      assert names[21 + j'] == "local-" + env + "." + exts[j'];
    }
    LaterCandidateWins(options, env, cwd, existing, load, a, p, v);
  }
}

=== FILE: helpers.dfy ===
/**
 * `isRawConfig` and `deepMerge` (src/helpers.ts). The source merges `target`
 * into `source` in place; here the merge returns the merged record, so
 * `DeepMerge(base, overlay)` is the value `source` holds afterwards.
 */
module Helpers {
  import opened Wrappers
  import opened Values

  /** A non-null, non-array object: the only shape a provider may return. */
  function IsRawConfig(v: Value): (r: bool)
    ensures r <==> TypeOf(v) == "object" && !v.Null? && !v.Arr?
  {
    v.Obj?
  }

  /**
   * For every key of `overlay`: an array replaces the base value outright, two
   * plain objects merge recursively, anything else is replaced by the overlay
   * value. Keys found only in `base` are kept.
   */
  function DeepMerge(base: RawConfig, overlay: RawConfig): (r: RawConfig)
    decreases Obj(overlay)
    ensures r.Keys == base.Keys + overlay.Keys
    ensures forall k :: k in base && k !in overlay ==> r[k] == base[k]
    ensures forall k :: k in overlay && overlay[k].Arr? ==> r[k] == overlay[k]
    ensures forall k :: k in overlay && !(k in base && IsRawConfig(base[k])) ==> r[k] == overlay[k]
    ensures forall k :: k in overlay && IsRawConfig(overlay[k]) && k in base && IsRawConfig(base[k]) ==>
      r[k].Obj? && r[k].fields.Keys == base[k].fields.Keys + overlay[k].fields.Keys
  {
    map k | k in base.Keys + overlay.Keys :: MergeAt(base, overlay, k)
  }

  /** The merged value at one key `k` of `overlay`'s or `base`'s. */
  function MergeAt(base: RawConfig, overlay: RawConfig, k: string): (r: Value)
    requires k in base || k in overlay
    decreases Obj(overlay), 0
  {
    if k !in overlay then base[k]
    else if overlay[k].Arr? then overlay[k]
    else if IsRawConfig(overlay[k]) && k in base && IsRawConfig(base[k]) then
      Obj(DeepMerge(base[k].fields, overlay[k].fields))
    else overlay[k]
  }

  /** An empty overlay leaves the base unchanged. */
  lemma MergeEmptyOverlay(base: RawConfig)
    ensures DeepMerge(base, map[]) == base
  {
  }

  /** Merging into an empty base yields the overlay itself. */
  lemma MergeEmptyBase(overlay: RawConfig)
    ensures DeepMerge(map[], overlay) == overlay
  {
  }

  /** Merging a record with itself changes nothing. */
  lemma {:induction false} MergeSelf(a: RawConfig)
    decreases Obj(a)
    ensures DeepMerge(a, a) == a
  {
    forall k | k in a ensures DeepMerge(a, a)[k] == a[k] {
      if a[k].Obj? {
        MergeSelf(a[k].fields);
      }
    }
  }

  /** Merging the same overlay twice is the same as merging it once. */
  lemma {:induction false} MergeIdempotent(base: RawConfig, overlay: RawConfig)
    decreases Obj(overlay)
    ensures DeepMerge(DeepMerge(base, overlay), overlay) == DeepMerge(base, overlay)
  {
    var once := DeepMerge(base, overlay);
    var twice := DeepMerge(once, overlay);
    forall k | k in overlay ensures twice[k] == once[k] {
      assert twice[k] == MergeAt(once, overlay, k);
      assert once[k] == MergeAt(base, overlay, k);
      if overlay[k].Obj? {
        if k in base && base[k].Obj? {
          MergeIdempotent(base[k].fields, overlay[k].fields);
        } else {
          MergeSelf(overlay[k].fields);
        }
      }
    }
  }

  /**
   * Every non-object value the overlay holds at an object path is found at the
   * same path of the merge: the overlay wins.
   */
  lemma {:induction false} OverlayWins(base: RawConfig, overlay: RawConfig, p: seq<string>, v: Value)
    requires Lookup(Obj(overlay), p) == Some(v)
    requires !v.Obj?
    ensures Lookup(Obj(DeepMerge(base, overlay)), p) == Some(v)
    decreases |p|
  {
    var k := p[0];
    var w := overlay[k];
    var r := DeepMerge(base, overlay);
    assert r[k] == MergeAt(base, overlay, k);
    assert Lookup(w, p[1..]) == Some(v);
    if w.Obj? && k in base && base[k].Obj? {
      assert |p| > 1;
      OverlayWins(base[k].fields, w.fields, p[1..], v);
      assert r[k] == Obj(DeepMerge(base[k].fields, w.fields));
    } else {
      assert r[k] == w;
    }
  }

  /**
   * The overlay does not reach path `p`: along `p` it holds only objects, and
   * it runs out of keys before `p` ends.
   */
  predicate Untouched(overlay: RawConfig, p: seq<string>)
    decreases |p|
  {
    |p| >= 1 &&
    (p[0] !in overlay || (overlay[p[0]].Obj? && Untouched(overlay[p[0]].fields, p[1..])))
  }

  /** A base value the overlay does not reach survives the merge unchanged. */
  lemma {:induction false} BasePreserved(base: RawConfig, overlay: RawConfig, p: seq<string>, v: Value)
    requires Lookup(Obj(base), p) == Some(v)
    requires Untouched(overlay, p)
    ensures Lookup(Obj(DeepMerge(base, overlay)), p) == Some(v)
    decreases |p|
  {
    var k := p[0];
    var r := DeepMerge(base, overlay);
    assert r[k] == MergeAt(base, overlay, k);
    assert Lookup(base[k], p[1..]) == Some(v);
    if k in overlay {
      assert |p| > 1 && base[k].Obj?;
      BasePreserved(base[k].fields, overlay[k].fields, p[1..], v);
      assert r[k] == Obj(DeepMerge(base[k].fields, overlay[k].fields));
    } else {
      assert r[k] == base[k];
    }
  }

  /** Nested objects merge key by key; keys of either side all survive. */
  lemma MergeExample()
    ensures DeepMerge(map["a" := Num(1.0), "b" := Obj(map["c" := Num(2.0)])],
                      map["b" := Obj(map["d" := Num(3.0)]), "e" := Num(4.0)])
         == map["a" := Num(1.0), "b" := Obj(map["c" := Num(2.0), "d" := Num(3.0)]), "e" := Num(4.0)]
  {
    var base := map["a" := Num(1.0), "b" := Obj(map["c" := Num(2.0)])];
    var overlay := map["b" := Obj(map["d" := Num(3.0)]), "e" := Num(4.0)];
    var inner := DeepMerge(map["c" := Num(2.0)], map["d" := Num(3.0)]);
    assert inner.Keys == {"c", "d"};
    assert inner == map["c" := Num(2.0), "d" := Num(3.0)];
    var r := DeepMerge(base, overlay);
    assert r.Keys == {"a", "b", "e"};
    assert r["b"] == MergeAt(base, overlay, "b") == Obj(inner);
  }

  /**
   * The left fold `deepMerge(acc, layers[0]); deepMerge(acc, layers[1]); ...`
   * that both the file provider and the resolver perform: later layers take
   * precedence over earlier ones.
   */
  function MergeAll(acc: RawConfig, layers: seq<RawConfig>): (r: RawConfig)
    ensures forall k :: k in acc ==> k in r
    ensures forall i, k :: 0 <= i < |layers| && k in layers[i] ==> k in r
    decreases |layers|
  {
    if layers == [] then acc
    else
      var r := MergeAll(DeepMerge(acc, layers[0]), layers[1..]);
      assert forall i, k :: 1 <= i < |layers| && k in layers[i] ==> k in layers[1..][i - 1];
      r
  }

  /** Folding two layers is merging them one after the other. */
  lemma MergeAllPair(acc: RawConfig, x: RawConfig, y: RawConfig)
    ensures MergeAll(acc, [x, y]) == DeepMerge(DeepMerge(acc, x), y)
  {
    var once := DeepMerge(acc, x);
    assert [x, y][1..] == [y];
    assert MergeAll(acc, [x, y]) == MergeAll(once, [y]);
    assert [y][1..] == [];
    assert MergeAll(once, [y]) == MergeAll(DeepMerge(once, y), []);
  }

  /** A value no later layer reaches survives the rest of the fold. */
  lemma {:induction false} MergeAllPreserves(acc: RawConfig, layers: seq<RawConfig>, p: seq<string>, v: Value)
    requires Lookup(Obj(acc), p) == Some(v)
    requires forall j :: 0 <= j < |layers| ==> Untouched(layers[j], p)
    ensures Lookup(Obj(MergeAll(acc, layers)), p) == Some(v)
    decreases |layers|
  {
    if layers != [] {
      BasePreserved(acc, layers[0], p, v);
      assert forall j :: 0 <= j < |layers[1..]| ==> layers[1..][j] == layers[j + 1];
      MergeAllPreserves(DeepMerge(acc, layers[0]), layers[1..], p, v);
    }
  }

  /**
   * Precedence: the non-object value layer `k` holds at `p` is the value of
   * the fold there, provided no later layer reaches `p`.
   */
  lemma {:induction false} LaterLayerWins(acc: RawConfig, layers: seq<RawConfig>, k: nat, p: seq<string>, v: Value)
    requires k < |layers|
    requires Lookup(Obj(layers[k]), p) == Some(v) && !v.Obj?
    requires forall j :: k < j < |layers| ==> Untouched(layers[j], p)
    ensures Lookup(Obj(MergeAll(acc, layers)), p) == Some(v)
    decreases k
  {
    var next := DeepMerge(acc, layers[0]);
    assert forall j :: 0 <= j < |layers[1..]| ==> layers[1..][j] == layers[j + 1];
    if k == 0 {
      OverlayWins(acc, layers[0], p, v);
      MergeAllPreserves(next, layers[1..], p, v);
    } else {
      LaterLayerWins(next, layers[1..], k - 1, p, v);
    }
  }
}

=== FILE: paths.dfy ===
/**
 * `PathMap` (src/paths.ts): a depth-first walk over a schema tree that builds
 * an insertion-ordered table from dotted path to type hint. `#` stands for
 * "any array index". The walk fails on unions that mix objects with
 * primitives, on unions of differing primitives, and on a path that two
 * branches give different hints.
 */
module Paths {
  import opened Wrappers
  import opened Errors
  import opened Strings

  /** The three type hints; bigint has none. */
  datatype Hint = StringHint | NumberHint | BooleanHint

  function HintName(h: Hint): string {
    match h
    case StringHint => "string"
    case NumberHint => "number"
    case BooleanHint => "boolean"
  }

  /**
   * The schema kinds the walk tells apart. Every other schema class (bigint,
   * literal, record, ...) is `Unsupported`, named by its class. An object's
   * `shape` lists its fields in `Object.entries` order: integer-like keys
   * first in ascending numeric order, then the other keys in insertion order.
   */
  datatype Schema =
    | Object(shape: seq<(string, Schema)>)
    | Array(element: Schema)
    | Effects(schema: Schema)
    | Default(innerType: Schema)
    | Optional(innerType: Schema)
    | Nullable(innerType: Schema)
    | Union(options: seq<Schema>)
    | String
    | Number
    | Boolean
    | Enum
    | NativeEnum
    | Unsupported(className: string)

  function ClassName(s: Schema): string {
    match s
    case Object(_) => "ZodObject"
    case Array(_) => "ZodArray"
    case Effects(_) => "ZodEffects"
    case Default(_) => "ZodDefault"
    case Optional(_) => "ZodOptional"
    case Nullable(_) => "ZodNullable"
    case Union(_) => "ZodUnion"
    case String => "ZodString"
    case Number => "ZodNumber"
    case Boolean => "ZodBoolean"
    case Enum => "ZodEnum"
    case NativeEnum => "ZodNativeEnum"
    case Unsupported(name) => name
  }

  /** The schema below any default, optional and nullable wrappers. */
  function Unwrap(s: Schema): Schema {
    match s
    case Default(inner) => Unwrap(inner)
    case Optional(inner) => Unwrap(inner)
    case Nullable(inner) => Unwrap(inner)
    case _ => s
  }

  predicate IsLeaf(s: Schema) {
    s.String? || s.Number? || s.Boolean? || s.Enum? || s.NativeEnum?
  }

  /** The hint a leaf kind denotes: enums are strings. */
  function LeafHint(s: Schema): Hint
    requires IsLeaf(s)
  {
    if s.Number? then NumberHint else if s.Boolean? then BooleanHint else StringHint
  }

  /**
   * `extractType`: the hint of a leaf, looking through default, optional and
   * nullable wrappers; any other kind is a failed assertion naming the class.
   */
  function ExtractType(s: Schema): (r: Result<Hint, Failure>)
    ensures r.Success? <==> IsLeaf(Unwrap(s))
    ensures r.Success? ==> r.value == LeafHint(Unwrap(s))
    ensures r.Failure? ==> r.error == AssertionFailure(UnsupportedType(ClassName(Unwrap(s))))
  {
    match s
    case String => Success(StringHint)
    case Number => Success(NumberHint)
    case Boolean => Success(BooleanHint)
    case Enum => Success(StringHint)
    case NativeEnum => Success(StringHint)
    case Default(inner) => ExtractType(inner)
    case Optional(inner) => ExtractType(inner)
    case Nullable(inner) => ExtractType(inner)
    case _ => Failure(AssertionFailure(UnsupportedType(ClassName(s))))
  }

  /** The table, in first-insertion order. */
  datatype PathMap = PathMap(entries: seq<(string, Hint)>)

  /** Each path occurs at most once. */
  ghost predicate Valid(pm: PathMap) {
    forall i, j :: 0 <= i < j < |pm.entries| ==> pm.entries[i].0 != pm.entries[j].0
  }

  ghost predicate HasPath(pm: PathMap, path: string) {
    exists i :: 0 <= i < |pm.entries| && pm.entries[i].0 == path
  }

  /** `get`: the stored hint, or `None` (`null`) for an absent path. */
  function Get(pm: PathMap, path: string): (r: Option<Hint>)
    ensures r.None? <==> !HasPath(pm, path)
    ensures r.Some? ==> (path, r.value) in pm.entries
    decreases |pm.entries|
  {
    if pm.entries == [] then None
    else if pm.entries[0].0 == path then Some(pm.entries[0].1)
    else
      var r := Get(PathMap(pm.entries[1..]), path);
      assert HasPath(PathMap(pm.entries[1..]), path) ==> HasPath(pm, path);
      r
  }

  /** In a valid table, `Get` returns the hint stored with the path. */
  lemma {:induction false} GetEntry(pm: PathMap, i: nat)
    requires Valid(pm)
    requires i < |pm.entries|
    ensures Get(pm, pm.entries[i].0) == Some(pm.entries[i].1)
    decreases i
  {
    if i > 0 {
      assert pm.entries[0].0 != pm.entries[i].0;
      var rest := PathMap(pm.entries[1..]);
      assert rest.entries[i - 1] == pm.entries[i];
      GetEntry(rest, i - 1);
    }
  }

  function CollisionMessage(path: string, existing: Hint, hint: Hint): string {
    "Collision detected at path '" + path + "': type '" + HintName(existing) + "' vs '" + HintName(hint) + "'"
  }

  /**
   * `add`: a new path is appended; re-adding a path with its own hint leaves
   * the table as it was (the entry keeps its place); another hint is a
   * collision.
   */
  function Add(pm: PathMap, path: string, hint: Hint): (r: Result<PathMap, Failure>)
    requires Valid(pm)
    ensures Get(pm, path).Some? && Get(pm, path).value != hint ==>
      r == Failure(Error(CollisionMessage(path, Get(pm, path).value, hint)))
    ensures Get(pm, path) == Some(hint) ==> r == Success(pm)
    ensures Get(pm, path).None? ==> r == Success(PathMap(pm.entries + [(path, hint)]))
    ensures r.Success? ==> Valid(r.value) && Get(r.value, path) == Some(hint)
    ensures r.Success? ==> forall q :: q != path ==> Get(r.value, q) == Get(pm, q)
    ensures r.Success? ==> Extends(pm, r.value)
  {
    match Get(pm, path)
    case Some(existing) =>
      if existing != hint then Failure(Error(CollisionMessage(path, existing, hint)))
      else Success(pm)
    case None =>
      AppendFresh(pm, path, hint);
      Success(PathMap(pm.entries + [(path, hint)]))
  }

  /** Appending an absent path keeps paths unique and changes only that path's lookup. */
  lemma AppendFresh(pm: PathMap, path: string, hint: Hint)
    requires Valid(pm) && Get(pm, path).None?
    ensures var pm' := PathMap(pm.entries + [(path, hint)]);
      && Valid(pm') && Get(pm', path) == Some(hint) && Extends(pm, pm')
      && forall q :: q != path ==> Get(pm', q) == Get(pm, q)
  {
    var pm' := PathMap(pm.entries + [(path, hint)]);
    assert forall i :: 0 <= i < |pm.entries| ==> pm'.entries[i] == pm.entries[i];
    assert pm'.entries[|pm.entries|] == (path, hint);
    assert Valid(pm') by {
      forall i, j | 0 <= i < j < |pm'.entries| ensures pm'.entries[i].0 != pm'.entries[j].0 {
        if j == |pm.entries| {
          assert pm.entries[i].0 != path by {
            assert !HasPath(pm, path);
          }
        }
      }
    }
    GetEntry(pm', |pm.entries|);
    assert pm'.entries[..|pm.entries|] == pm.entries;
    forall q | q != path ensures Get(pm', q) == Get(pm, q) {
      if HasPath(pm, q) {
        var i :| 0 <= i < |pm.entries| && pm.entries[i].0 == q;
        GetEntry(pm, i);
        GetEntry(pm', i);
      } else {
        AbsentAfterAppend(pm, path, hint, q);
      }
    }
  }

  lemma AbsentAfterAppend(pm: PathMap, path: string, hint: Hint, q: string)
    requires !HasPath(pm, q) && q != path
    ensures !HasPath(PathMap(pm.entries + [(path, hint)]), q)
  {
    var e := pm.entries + [(path, hint)];
    forall i | 0 <= i < |e| ensures e[i].0 != q {
      if i < |pm.entries| {
        assert e[i] == pm.entries[i];
      }
    }
  }

  /** `b` keeps every entry of `a`, in place, and may append more. */
  ghost predicate Extends(a: PathMap, b: PathMap) {
    |a.entries| <= |b.entries| && b.entries[..|a.entries|] == a.entries
  }

  /** Every entry `b` appends to `a` lies at or below `parent`. */
  ghost predicate Below(parent: string, a: PathMap, b: PathMap) {
    forall i :: |a.entries| <= i < |b.entries| ==> StartsWith(b.entries[i].0, parent)
  }

  /** The path of an object field: the key at the root, `parent.key` below it. */
  function Child(parent: string, key: string): string {
    if parent == "" then key else parent + "." + key
  }

  /** The path of an array element: `parent.#`, which is `.#` at the root. */
  function Element(parent: string): string {
    parent + ".#"
  }

  lemma StartsWithTrans(x: string, y: string, z: string)
    requires StartsWith(x, y) && StartsWith(y, z)
    ensures StartsWith(x, z)
  {
    assert x[..|z|] == x[..|y|][..|z|];
  }

  lemma ExtendsTrans(a: PathMap, b: PathMap, c: PathMap)
    requires Extends(a, b) && Extends(b, c)
    ensures Extends(a, c)
  {
    assert c.entries[..|a.entries|] == c.entries[..|b.entries|][..|a.entries|];
  }

  lemma BelowTrans(parent: string, a: PathMap, b: PathMap, c: PathMap)
    requires Extends(a, b) && Extends(b, c)
    requires Below(parent, a, b) && Below(parent, b, c)
    ensures Below(parent, a, c)
  {
    forall i | |a.entries| <= i < |c.entries| ensures StartsWith(c.entries[i].0, parent) {
      if i < |b.entries| {
        assert c.entries[i] == c.entries[..|b.entries|][i] == b.entries[i];
      }
    }
  }

  /** `addPaths`: the depth-first walk from `s`, whose path is `parent`. */
  function AddPaths(pm: PathMap, s: Schema, parent: string): (r: Result<PathMap, Failure>)
    requires Valid(pm)
    ensures r.Success? ==> Valid(r.value) && Extends(pm, r.value) && Below(parent, pm, r.value)
    decreases s, 2, 0
  {
    match s
    case Object(shape) => AddFields(pm, s, 0, parent)
    case Array(element) =>
      var r := AddPaths(pm, element, Element(parent));
      if r.Success? then
        BelowElement(parent, pm, r.value);
        r
      else r
    case Effects(inner) => AddPaths(pm, inner, parent)
    case Default(inner) => AddPaths(pm, inner, parent)
    case Optional(inner) => AddPaths(pm, inner, parent)
    case Nullable(inner) => AddPaths(pm, inner, parent)
    case Union(_) => HandleUnion(pm, s, parent)
    case _ => AddLeaf(pm, s, parent)
  }

  /** A schema with no children: its hint is registered at `parent` itself. */
  function AddLeaf(pm: PathMap, s: Schema, parent: string): (r: Result<PathMap, Failure>)
    requires Valid(pm)
    ensures r.Success? ==> Valid(r.value) && Extends(pm, r.value) && Below(parent, pm, r.value)
  {
    var hint :- ExtractType(s);
    var r := Add(pm, parent, hint);
    if r.Success? then
      AddBelow(pm, parent, hint);
      r
    else r
  }

  /** The one entry `add` may append lies at its own path. */
  lemma AddBelow(pm: PathMap, path: string, hint: Hint)
    requires Valid(pm) && Add(pm, path, hint).Success?
    ensures Below(path, pm, Add(pm, path, hint).value)
  {
    var r := Add(pm, path, hint).value;
    if Get(pm, path).None? {
      assert r.entries == pm.entries + [(path, hint)];
      assert |r.entries| == |pm.entries| + 1;
      assert r.entries[|pm.entries|].0 == path;
      assert StartsWith(path, path);
    } else {
      assert r == pm;
    }
  }

  lemma BelowElement(parent: string, a: PathMap, b: PathMap)
    requires Below(Element(parent), a, b)
    ensures Below(parent, a, b)
  {
    assert StartsWith(Element(parent), parent);
    forall i | |a.entries| <= i < |b.entries| ensures StartsWith(b.entries[i].0, parent) {
      StartsWithTrans(b.entries[i].0, Element(parent), parent);
    }
  }

  lemma BelowChild(parent: string, key: string, a: PathMap, b: PathMap)
    requires Below(Child(parent, key), a, b)
    ensures Below(parent, a, b)
  {
    assert StartsWith(Child(parent, key), parent);
    forall i | |a.entries| <= i < |b.entries| ensures StartsWith(b.entries[i].0, parent) {
      StartsWithTrans(b.entries[i].0, Child(parent, key), parent);
    }
  }

  /** The fields of object `s` from the `i`-th on, in `shape` (that is, `Object.entries`) order. */
  function AddFields(pm: PathMap, s: Schema, i: nat, parent: string): (r: Result<PathMap, Failure>)
    requires s.Object? && i <= |s.shape|
    requires Valid(pm)
    ensures r.Success? ==> Valid(r.value) && Extends(pm, r.value) && Below(parent, pm, r.value)
    decreases s, 1, |s.shape| - i
  {
    if i == |s.shape| then Success(pm)
    else
      var (key, sub) := s.shape[i];
      var pm1 :- AddPaths(pm, sub, Child(parent, key));
      BelowChild(parent, key, pm, pm1);
      var r := AddFields(pm1, s, i + 1, parent);
      if r.Success? then
        ExtendsTrans(pm, pm1, r.value);
        BelowTrans(parent, pm, pm1, r.value);
        r
      else r
  }

  /** The hints of the non-object branches that are leaves, in a set. */
  function PrimitiveHints(options: seq<Schema>): set<Hint> {
    if options == [] then {}
    else
      (if !options[0].Object? && IsLeaf(Unwrap(options[0])) then {LeafHint(Unwrap(options[0]))} else {})
      + PrimitiveHints(options[1..])
  }

  ghost predicate HasObjectBranch(options: seq<Schema>) {
    exists j :: 0 <= j < |options| && options[j].Object?
  }

  /**
   * The loop of `handleUnion` from branch `i` on: object branches are walked
   * at the union's own path, every other branch contributes its hint.
   */
  function UnionLoop(pm: PathMap, s: Schema, i: nat, parent: string, prims: set<Hint>, hasObject: bool)
    : (r: Result<(PathMap, set<Hint>, bool), Failure>)
    requires s.Union? && i <= |s.options|
    requires Valid(pm)
    ensures r.Success? ==> Valid(r.value.0) && Extends(pm, r.value.0) && Below(parent, pm, r.value.0)
    ensures r.Success? ==> r.value.1 == prims + PrimitiveHints(s.options[i..])
    ensures r.Success? ==> r.value.2 == (hasObject || HasObjectBranch(s.options[i..]))
    ensures r.Success? ==> forall j :: i <= j < |s.options| && !s.options[j].Object? ==> IsLeaf(Unwrap(s.options[j]))
    decreases s, 1, |s.options| - i
  {
    if i == |s.options| then Success((pm, prims, hasObject))
    else
      var option := s.options[i];
      assert s.options[i..] == [option] + s.options[i + 1..];
      if option.Object? then
        var pm1 :- AddPaths(pm, option, parent);
        var r := UnionLoop(pm1, s, i + 1, parent, prims, true);
        if r.Success? then
          ExtendsTrans(pm, pm1, r.value.0);
          BelowTrans(parent, pm, pm1, r.value.0);
          r
        else r
      else
        var hint :- ExtractType(option);
        UnionLoop(pm, s, i + 1, parent, prims + {hint}, hasObject)
  }

  function MixedObjectsMessage(path: string): string {
    "Union at path '" + path + "' mixes objects and primitives"
  }

  function MixedPrimitivesMessage(path: string): string {
    "Union at path '" + path + "' mixes primitives of different types"
  }

  /** The one element of a singleton set of hints. */
  function TheHint(hints: set<Hint>): (h: Hint)
    requires |hints| == 1
    ensures hints == {h}
  {
    var h := if StringHint in hints then StringHint else if NumberHint in hints then NumberHint else BooleanHint;
    assert h in hints by {
      assert hints != {};
      var x :| x in hints;
      assert x.StringHint? || x.NumberHint? || x.BooleanHint?;
    }
    assert hints - {h} == {} by {
      assert |hints - {h}| == 0;
    }
    h
  }

  /** `handleUnion`. */
  function HandleUnion(pm: PathMap, s: Schema, parent: string): (r: Result<PathMap, Failure>)
    requires s.Union? && Valid(pm)
    ensures r.Success? ==> Valid(r.value) && Extends(pm, r.value) && Below(parent, pm, r.value)
    decreases s, 1, |s.options| + 1
  {
    var (pm1, prims, hasObject) :- UnionLoop(pm, s, 0, parent, {}, false);
    if hasObject then
      if prims != {} then Failure(Error(MixedObjectsMessage(parent))) else Success(pm1)
    else if |prims| > 1 then Failure(Error(MixedPrimitivesMessage(parent)))
    else if prims == {} then Failure(AssertionFailure(MissingUnionHint))
    else
      var r := Add(pm1, parent, TheHint(prims));
      if r.Success? then
        assert StartsWith(parent, parent);
        ExtendsTrans(pm, pm1, r.value);
        BelowTrans(parent, pm, pm1, r.value);
        r
      else r
  }

  /** The `PathMap` constructor: the walk from the root with an empty path. */
  function Build(s: Schema): (r: Result<PathMap, Failure>)
    ensures r.Success? ==> Valid(r.value)
  {
    AddPaths(PathMap([]), s, "")
  }

  /** An object field adds exactly its key as one more path segment. */
  lemma ChildSegments(parent: string, key: string)
    requires !Contains(key, '.')
    ensures Split(Child(parent, key), '.') == (if parent == "" then [] else Split(parent, '.')) + [key]
  {
    SplitFree(key, '.');
    if parent != "" {
      SplitConcat(parent, key, '.');
    }
  }

  /** An array element adds one `#` segment, so the root array's elements live at `.#`. */
  lemma ElementSegments(parent: string)
    ensures Split(Element(parent), '.') == Split(parent, '.') + ["#"]
    ensures Element("") == ".#"
  {
    SplitFree("#", '.');
    assert Element(parent) == parent + ['.'] + "#";
    SplitConcat(parent, "#", '.');
  }

  /** Wrappers are transparent: they recurse at the same path and add no segment. */
  lemma WrappersTransparent(pm: PathMap, s: Schema, parent: string)
    requires Valid(pm)
    ensures AddPaths(pm, Effects(s), parent) == AddPaths(pm, s, parent)
    ensures AddPaths(pm, Default(s), parent) == AddPaths(pm, s, parent)
    ensures AddPaths(pm, Optional(s), parent) == AddPaths(pm, s, parent)
    ensures AddPaths(pm, Nullable(s), parent) == AddPaths(pm, s, parent)
  {
  }

  /** A leaf registers its hint at its own path. */
  lemma LeafAdds(pm: PathMap, s: Schema, parent: string)
    requires Valid(pm) && IsLeaf(s)
    ensures AddPaths(pm, s, parent) == Add(pm, parent, LeafHint(s))
  {
    assert ExtractType(s) == Success(LeafHint(s));
    assert AddPaths(pm, s, parent) == AddLeaf(pm, s, parent);
  }

  lemma {:induction false} PrimitiveHintsMember(options: seq<Schema>, j: nat)
    requires j < |options| && !options[j].Object? && IsLeaf(Unwrap(options[j]))
    ensures LeafHint(Unwrap(options[j])) in PrimitiveHints(options)
    decreases j
  {
    if j > 0 {
      assert options[1..][j - 1] == options[j];
      PrimitiveHintsMember(options[1..], j - 1);
    }
  }

  /**
   * A union with an object branch and a non-object branch never succeeds; once
   * every branch has been walked without error, it fails with the
   * "mixes objects and primitives" message.
   */
  lemma UnionMixesObjectsAndPrimitives(pm: PathMap, options: seq<Schema>, parent: string, i: nat, j: nat)
    requires Valid(pm)
    requires i < |options| && options[i].Object?
    requires j < |options| && !options[j].Object?
    ensures AddPaths(pm, Union(options), parent).Failure?
    ensures UnionLoop(pm, Union(options), 0, parent, {}, false).Success? ==>
      AddPaths(pm, Union(options), parent) == Failure(Error(MixedObjectsMessage(parent)))
  {
    var s := Union(options);
    var loop := UnionLoop(pm, s, 0, parent, {}, false);
    assert options[0..] == options;
    if loop.Success? {
      assert HasObjectBranch(options);
      PrimitiveHintsMember(options, j);
      assert loop.value.1 != {};
    }
  }

  /** When every branch is a primitive, the loop collects their hints and adds nothing. */
  lemma {:induction false} PrimitiveLoop(pm: PathMap, s: Schema, i: nat, parent: string, prims: set<Hint>, hasObject: bool)
    requires s.Union? && i <= |s.options| && Valid(pm)
    requires forall j :: 0 <= j < |s.options| ==> !s.options[j].Object? && IsLeaf(Unwrap(s.options[j]))
    ensures UnionLoop(pm, s, i, parent, prims, hasObject) == Success((pm, prims + PrimitiveHints(s.options[i..]), hasObject))
    decreases |s.options| - i
  {
    if i < |s.options| {
      assert s.options[i..] == [s.options[i]] + s.options[i + 1..];
      PrimitiveLoop(pm, s, i + 1, parent, prims + {LeafHint(Unwrap(s.options[i]))}, hasObject);
    }
  }

  lemma {:induction false} PrimitiveHintsNonEmpty(options: seq<Schema>)
    requires options != []
    requires !options[0].Object? && IsLeaf(Unwrap(options[0]))
    ensures PrimitiveHints(options) != {}
  {
    assert LeafHint(Unwrap(options[0])) in PrimitiveHints(options);
  }

  /**
   * A union of primitive branches registers their one hint at the union's own
   * path, fails when the hints differ, and trips the `typeHint` assertion
   * when it has no branch at all.
   */
  lemma UnionOfPrimitives(pm: PathMap, options: seq<Schema>, parent: string)
    requires Valid(pm)
    requires forall j :: 0 <= j < |options| ==> !options[j].Object? && IsLeaf(Unwrap(options[j]))
    ensures |PrimitiveHints(options)| > 1 ==>
      AddPaths(pm, Union(options), parent) == Failure(Error(MixedPrimitivesMessage(parent)))
    ensures |PrimitiveHints(options)| == 1 ==>
      AddPaths(pm, Union(options), parent) == Add(pm, parent, TheHint(PrimitiveHints(options)))
    ensures options == [] ==>
      AddPaths(pm, Union(options), parent) == Failure(AssertionFailure(MissingUnionHint))
    ensures options != [] ==> |PrimitiveHints(options)| >= 1
  {
    var s := Union(options);
    PrimitiveLoop(pm, s, 0, parent, {}, false);
    assert options[0..] == options;
    var prims := PrimitiveHints(options);
    assert UnionLoop(pm, s, 0, parent, {}, false) == Success((pm, prims, false));
    assert AddPaths(pm, s, parent) == HandleUnion(pm, s, parent);
    if options != [] {
      PrimitiveHintsNonEmpty(options);
    }
  }

  /** The object branches of a union walked one after another at the same path. */
  function AddAll(pm: PathMap, schemas: seq<Schema>, parent: string): (r: Result<PathMap, Failure>)
    requires Valid(pm)
    ensures r.Success? ==> Valid(r.value)
    decreases |schemas|
  {
    if schemas == [] then Success(pm)
    else
      var pm1 :- AddPaths(pm, schemas[0], parent);
      AddAll(pm1, schemas[1..], parent)
  }

  lemma {:induction false} ObjectLoop(pm: PathMap, s: Schema, i: nat, parent: string, hasObject: bool)
    requires s.Union? && i <= |s.options| && Valid(pm)
    requires forall j :: 0 <= j < |s.options| ==> s.options[j].Object?
    ensures AddAll(pm, s.options[i..], parent).Failure? ==>
      UnionLoop(pm, s, i, parent, {}, hasObject) == Failure(AddAll(pm, s.options[i..], parent).error)
    ensures AddAll(pm, s.options[i..], parent).Success? ==>
      UnionLoop(pm, s, i, parent, {}, hasObject)
        == Success((AddAll(pm, s.options[i..], parent).value, {}, hasObject || i < |s.options|))
    decreases |s.options| - i
  {
    if i < |s.options| {
      assert s.options[i..][0] == s.options[i];
      assert s.options[i..][1..] == s.options[i + 1..];
      var first := AddPaths(pm, s.options[i], parent);
      if first.Success? {
        ObjectLoop(first.value, s, i + 1, parent, true);
      }
    }
  }

  /**
   * A non-empty union of objects registers nothing of its own: it is the
   * object branches walked in order at the union's path.
   */
  lemma UnionOfObjects(pm: PathMap, options: seq<Schema>, parent: string)
    requires Valid(pm) && options != []
    requires forall j :: 0 <= j < |options| ==> options[j].Object?
    ensures AddPaths(pm, Union(options), parent) == AddAll(pm, options, parent)
  {
    ObjectLoop(pm, Union(options), 0, parent, false);
    assert options[0..] == options;
  }

  /** Fields are walked, and so registered, in `shape` order; here no key is integer-like, so that is insertion order. */
  lemma ObjectIterationOrder()
    ensures Build(Object([("name", String), ("age", Number), ("active", Boolean)]))
      == Success(PathMap([("name", StringHint), ("age", NumberHint), ("active", BooleanHint)]))
  {
    var s := Object([("name", String), ("age", Number), ("active", Boolean)]);
    var m3 := PathMap([("name", StringHint), ("age", NumberHint), ("active", BooleanHint)]);
    ThreeFields(s, m3);
    assert Build(s) == AddFields(PathMap([]), s, 0, "");
  }

  lemma ThreeFields(s: Schema, m3: PathMap)
    requires s == Object([("name", String), ("age", Number), ("active", Boolean)])
    requires m3 == PathMap([("name", StringHint), ("age", NumberHint), ("active", BooleanHint)])
    ensures AddFields(PathMap([]), s, 0, "") == Success(m3)
  {
    var m0 := PathMap([]);
    var m1 := PathMap(m0.entries + [("name", StringHint)]);
    var m2 := PathMap(m1.entries + [("age", NumberHint)]);
    assert m3.entries == m2.entries + [("active", BooleanHint)];
    AppendLeaf(m0, s, 0, "name", String, StringHint);
    AppendLeaf(m1, s, 1, "age", Number, NumberHint);
    assert m2.entries[0].0 != "active" && m2.entries[1].0 != "active";
    AppendLeaf(m2, s, 2, "active", Boolean, BooleanHint);
    assert AddFields(m3, s, 3, "") == Success(m3);
  }

  /** A root-level leaf field whose path is new is appended, and the walk goes on. */
  lemma AppendLeaf(pm: PathMap, s: Schema, i: nat, key: string, leaf: Schema, hint: Hint)
    requires Valid(pm) && s.Object? && i < |s.shape| && s.shape[i] == (key, leaf)
    requires IsLeaf(leaf) && LeafHint(leaf) == hint
    requires forall j :: 0 <= j < |pm.entries| ==> pm.entries[j].0 != key
    ensures Valid(PathMap(pm.entries + [(key, hint)]))
    ensures AddFields(pm, s, i, "") == AddFields(PathMap(pm.entries + [(key, hint)]), s, i + 1, "")
  {
    assert Get(pm, key) == None;
    LeafAdds(pm, leaf, key);
  }

  /** An empty object yields an empty table, in which every lookup is absent. */
  lemma EmptyObject(path: string)
    ensures Build(Object([])) == Success(PathMap([]))
    ensures Get(PathMap([]), path) == None
  {
  }

  /** A root array of strings registers `.#`. */
  lemma RootArray()
    ensures Build(Array(String)) == Success(PathMap([(".#", StringHint)]))
  {
  }

  /** Two object branches that give one field different hints collide. */
  lemma ObjectUnionCollision()
    ensures Build(Union([Object([("foo", String)]), Object([("foo", Number)])]))
      == Failure(Error(CollisionMessage("foo", StringHint, NumberHint)))
  {
    var a := Object([("foo", String)]);
    var b := Object([("foo", Number)]);
    var u := Union([a, b]);
    var m1 := PathMap([("foo", StringHint)]);
    var e := Error(CollisionMessage("foo", StringHint, NumberHint));
    FirstBranch(a, m1);
    SecondBranch(b, m1, e);
    assert UnionLoop(m1, u, 1, "", {}, true) == Failure(e);
    assert UnionLoop(PathMap([]), u, 0, "", {}, false) == Failure(e);
  }

  lemma FirstBranch(a: Schema, m1: PathMap)
    requires a == Object([("foo", String)]) && m1 == PathMap([("foo", StringHint)])
    ensures Valid(m1) && AddPaths(PathMap([]), a, "") == Success(m1)
  {
    AppendLeaf(PathMap([]), a, 0, "foo", String, StringHint);
    assert [] + [("foo", StringHint)] == m1.entries;
    assert AddFields(m1, a, 1, "") == Success(m1);
  }

  lemma SecondBranch(b: Schema, m1: PathMap, e: Failure)
    requires b == Object([("foo", Number)]) && m1 == PathMap([("foo", StringHint)])
    requires e == Error(CollisionMessage("foo", StringHint, NumberHint))
    ensures Valid(m1) && AddPaths(m1, b, "") == Failure(e)
  {
    assert Get(m1, "foo") == Some(StringHint);
    LeafAdds(m1, Number, "foo");
    assert AddPaths(m1, Number, "foo") == Failure(e);
  }

  /** The collision message spells out the path and both hints. */
  lemma CollisionMessageText()
    ensures CollisionMessage("foo", StringHint, NumberHint)
      == "Collision detected at path 'foo': type 'string' vs 'number'"
  {
  }

  /** A wrapped object is not a leaf: handing it to the type extractor is a failed assertion. */
  lemma WrappedObjectUnsupported(shape: seq<(string, Schema)>)
    ensures ExtractType(Optional(Object(shape))) == Failure(AssertionFailure(UnsupportedType("ZodObject")))
    ensures ExtractType(Effects(String)) == Failure(AssertionFailure(UnsupportedType("ZodEffects")))
  {
  }

  /* ---------- The walk as a fold of `add` over the schema's leaves ---------- */

  /** A schema with no union and no unsupported kind anywhere in it. */
  predicate Plain(s: Schema)
    decreases s
  {
    match s
    case Object(shape) => forall i :: 0 <= i < |shape| ==> Plain(shape[i].1)
    case Array(element) => Plain(element)
    case Effects(inner) => Plain(inner)
    case Default(inner) => Plain(inner)
    case Optional(inner) => Plain(inner)
    case Nullable(inner) => Plain(inner)
    case Union(_) => false
    case Unsupported(_) => false
    case _ => true
  }

  /**
   * The leaves of a plain schema in depth-first order, each with its path
   * and hint: fields by `Child`, elements by `Element`, wrappers at the same
   * path.
   */
  function LeafEntries(s: Schema, parent: string): seq<(string, Hint)>
    requires Plain(s)
    decreases s, 1
  {
    match s
    case Object(_) => FieldEntries(s, 0, parent)
    case Array(element) => LeafEntries(element, Element(parent))
    case Effects(inner) => LeafEntries(inner, parent)
    case Default(inner) => LeafEntries(inner, parent)
    case Optional(inner) => LeafEntries(inner, parent)
    case Nullable(inner) => LeafEntries(inner, parent)
    case _ => [(parent, LeafHint(s))]
  }

  function FieldEntries(s: Schema, i: nat, parent: string): seq<(string, Hint)>
    requires s.Object? && i <= |s.shape| && Plain(s)
    decreases s, 0, |s.shape| - i
  {
    if i == |s.shape| then []
    else LeafEntries(s.shape[i].1, Child(parent, s.shape[i].0)) + FieldEntries(s, i + 1, parent)
  }

  /** `add` applied to each entry in turn; the first collision aborts. */
  function AddEach(pm: PathMap, es: seq<(string, Hint)>): (r: Result<PathMap, Failure>)
    requires Valid(pm)
    ensures r.Success? ==> Valid(r.value)
    decreases |es|
  {
    if es == [] then Success(pm)
    else
      var pm1 :- Add(pm, es[0].0, es[0].1);
      AddEach(pm1, es[1..])
  }

  lemma {:induction false} AddEachAppend(pm: PathMap, a: seq<(string, Hint)>, b: seq<(string, Hint)>)
    requires Valid(pm)
    ensures AddEach(pm, a).Failure? ==> AddEach(pm, a + b) == AddEach(pm, a)
    ensures AddEach(pm, a).Success? ==> AddEach(pm, a + b) == AddEach(AddEach(pm, a).value, b)
    decreases |a|
  {
    if a == [] {
      assert a + b == b;
    } else {
      assert (a + b)[0] == a[0] && (a + b)[1..] == a[1..] + b;
      var r := Add(pm, a[0].0, a[0].1);
      if r.Success? {
        AddEachAppend(r.value, a[1..], b);
      }
    }
  }

  /** The walk of a plain schema is `add` folded over its leaves in depth-first order. */
  lemma {:induction false} WalkIsFold(pm: PathMap, s: Schema, parent: string)
    requires Valid(pm) && Plain(s)
    ensures AddPaths(pm, s, parent) == AddEach(pm, LeafEntries(s, parent))
    decreases s, 1
  {
    match s
    case Object(_) => FieldsFold(pm, s, 0, parent);
    case Array(element) => WalkIsFold(pm, element, Element(parent));
    case Effects(inner) => WalkIsFold(pm, inner, parent);
    case Default(inner) => WalkIsFold(pm, inner, parent);
    case Optional(inner) => WalkIsFold(pm, inner, parent);
    case Nullable(inner) => WalkIsFold(pm, inner, parent);
    case String => LeafFold(pm, s, parent);
    case Number => LeafFold(pm, s, parent);
    case Boolean => LeafFold(pm, s, parent);
    case Enum => LeafFold(pm, s, parent);
    case NativeEnum => LeafFold(pm, s, parent);
  }

  lemma LeafFold(pm: PathMap, s: Schema, parent: string)
    requires Valid(pm) && IsLeaf(s)
    ensures AddPaths(pm, s, parent) == AddEach(pm, [(parent, LeafHint(s))])
  {
    LeafAdds(pm, s, parent);
    var r := Add(pm, parent, LeafHint(s));
    assert [(parent, LeafHint(s))][1..] == [];
    if r.Success? {
      assert AddEach(r.value, []) == r;
    }
  }

  lemma {:induction false} FieldsFold(pm: PathMap, s: Schema, i: nat, parent: string)
    requires Valid(pm) && s.Object? && Plain(s) && i <= |s.shape|
    ensures AddFields(pm, s, i, parent) == AddEach(pm, FieldEntries(s, i, parent))
    decreases s, 0, |s.shape| - i
  {
    if i < |s.shape| {
      var sub, child := s.shape[i].1, Child(parent, s.shape[i].0);
      assert Plain(sub);
      var first, rest := LeafEntries(sub, child), FieldEntries(s, i + 1, parent);
      assert FieldEntries(s, i, parent) == first + rest;
      WalkIsFold(pm, sub, child);
      AddEachAppend(pm, first, rest);
      FieldStep(pm, s, i, parent);
      var r := AddPaths(pm, sub, child);
      if r.Success? {
        FieldsFold(r.value, s, i + 1, parent);
      }
    }
  }

  /** One field of `AddFields`: walk it, then the fields after it. */
  lemma FieldStep(pm: PathMap, s: Schema, i: nat, parent: string)
    requires Valid(pm) && s.Object? && i < |s.shape|
    ensures var r := AddPaths(pm, s.shape[i].1, Child(parent, s.shape[i].0));
      && (r.Failure? ==> AddFields(pm, s, i, parent) == r)
      && (r.Success? ==> AddFields(pm, s, i, parent) == AddFields(r.value, s, i + 1, parent))
  {
  }

  /** No path carries two different hints among `entries`. */
  ghost predicate Consistent(entries: seq<(string, Hint)>) {
    forall a, b :: a in entries && b in entries && a.0 == b.0 ==> a.1 == b.1
  }

  /**
   * Folding `add` succeeds exactly when the table and the entries never give
   * one path two hints; the result then holds exactly the table's entries and
   * the new ones.
   */
  lemma {:induction false} AddEachMeaning(pm: PathMap, es: seq<(string, Hint)>)
    requires Valid(pm)
    ensures AddEach(pm, es).Success? <==> Consistent(pm.entries + es)
    ensures AddEach(pm, es).Success? ==>
      forall e :: e in AddEach(pm, es).value.entries <==> e in pm.entries || e in es
    decreases |es|
  {
    if es == [] {
      assert pm.entries + es == pm.entries;
      ValidConsistent(pm);
    } else {
      var r := Add(pm, es[0].0, es[0].1);
      if r.Failure? {
        CollisionInconsistent(pm, es);
      } else {
        assert AddEach(pm, es) == AddEach(r.value, es[1..]);
        AddEachMeaning(r.value, es[1..]);
        AddStepEntries(pm, es);
        ConsistentSame(r.value.entries + es[1..], pm.entries + es);
      }
    }
  }

  /** A failed `add` of `es[0]` means the table already gives its path another hint. */
  lemma CollisionInconsistent(pm: PathMap, es: seq<(string, Hint)>)
    requires Valid(pm) && es != [] && Add(pm, es[0].0, es[0].1).Failure?
    ensures AddEach(pm, es).Failure? && !Consistent(pm.entries + es)
  {
    var path, hint := es[0].0, es[0].1;
    var stored := Get(pm, path).value;
    assert (path, stored) in pm.entries && stored != hint;
    assert (path, stored) in pm.entries + es;
    assert es[0] in pm.entries + es;
  }

  /** After a successful `add` of `es[0]`, the table and the rest hold what the table and `es` held. */
  lemma AddStepEntries(pm: PathMap, es: seq<(string, Hint)>)
    requires Valid(pm) && es != [] && Add(pm, es[0].0, es[0].1).Success?
    ensures var r := Add(pm, es[0].0, es[0].1).value;
      && (forall e :: e in r.entries + es[1..] <==> e in pm.entries + es)
      && (forall e :: e in r.entries || e in es[1..] <==> e in pm.entries || e in es)
  {
    var path, hint := es[0].0, es[0].1;
    var r := Add(pm, path, hint).value;
    assert es == [es[0]] + es[1..];
    if Get(pm, path).Some? {
      assert es[0] in pm.entries;
    } else {
      assert r.entries == pm.entries + [es[0]];
    }
  }

  /** With `es[0]` already in the table, dropping it changes no entry set. */
  lemma ConsistentSame(a: seq<(string, Hint)>, b: seq<(string, Hint)>)
    requires forall e :: e in a <==> e in b
    ensures Consistent(a) <==> Consistent(b)
  {
  }

  lemma ValidConsistent(pm: PathMap)
    requires Valid(pm)
    ensures Consistent(pm.entries)
  {
    forall a, b | a in pm.entries && b in pm.entries && a.0 == b.0 ensures a.1 == b.1 {
      var i :| 0 <= i < |pm.entries| && pm.entries[i] == a;
      var j :| 0 <= j < |pm.entries| && pm.entries[j] == b;
      assert i == j;
    }
  }

  /** Entries on fresh, pairwise different paths are appended as they are, in order. */
  lemma {:induction false} AddEachFresh(pm: PathMap, es: seq<(string, Hint)>)
    requires Valid(pm) && Valid(PathMap(pm.entries + es))
    ensures AddEach(pm, es) == Success(PathMap(pm.entries + es))
    decreases |es|
  {
    if es == [] {
      assert pm.entries + es == pm.entries;
    } else {
      var path, hint := es[0].0, es[0].1;
      var all := pm.entries + es;
      assert all[|pm.entries|] == es[0];
      assert !HasPath(pm, path) by {
        forall i | 0 <= i < |pm.entries| ensures pm.entries[i].0 != path {
          assert all[i] == pm.entries[i];
        }
      }
      var pm1 := PathMap(pm.entries + [es[0]]);
      assert Add(pm, path, hint) == Success(pm1);
      assert es == [es[0]] + es[1..];
      assert pm1.entries + es[1..] == all;
      AddEachFresh(pm1, es[1..]);
      assert AddEach(pm, es) == AddEach(pm1, es[1..]);
    }
  }

  /**
   * The table of a plain schema: it is built exactly when no two leaves give
   * one path different hints, and then holds exactly the leaf entries; when
   * the leaf paths are pairwise different it is the leaf list itself, one
   * entry per leaf in depth-first order.
   */
  lemma BuildLeaves(s: Schema)
    requires Plain(s)
    ensures Build(s).Success? <==> Consistent(LeafEntries(s, ""))
    ensures Build(s).Success? ==>
      forall e :: e in Build(s).value.entries <==> e in LeafEntries(s, "")
    ensures Valid(PathMap(LeafEntries(s, ""))) ==> Build(s) == Success(PathMap(LeafEntries(s, "")))
  {
    var empty := PathMap([]);
    var leaves := LeafEntries(s, "");
    assert Build(s) == AddPaths(empty, s, "");
    WalkIsFold(empty, s, "");
    var r := AddEach(empty, leaves);
    assert empty.entries + leaves == leaves;
    AddEachMeaning(empty, leaves);
    assert r.Success? ==> forall e :: e in r.value.entries <==> e in leaves;
    if Valid(PathMap(leaves)) {
      AddEachFresh(empty, leaves);
    }
  }
}

=== FILE: resolver.dfy ===
/**
 * `ConfigResolver` (src/resolver.ts): it builds the path table from the
 * schema once, keeps the registered providers with their priorities, and
 * resolves by reading the providers in ascending priority order, folding
 * their outputs together with `deepMerge`, and handing the result to the
 * schema's validator.
 */
module Resolver {
  import opened Wrappers
  import opened Errors
  import opened Values
  import opened Helpers
  import Paths
  import Env
  import Files

  /** The two built-in providers, and any other provider, known by an identifier. */
  datatype Provider =
    | FileProvider(fileOptions: Files.FileOptions)
    | EnvProvider(envOptions: Env.EnvOptions)
    | CustomProvider(id: nat)

  datatype ProviderItem = ProviderItem(provider: Provider, priority: int)

  datatype ConfigResolver = ConfigResolver(
    schema: Paths.Schema,
    pathMap: Paths.PathMap,
    env: string,
    providers: seq<ProviderItem>)

  /**
   * What a read consults outside the resolver: the working directory, the
   * process environment, which files exist and what each parses to, the
   * word splitter and number parser, and the reads of custom providers
   * (given the path table and the environment name).
   */
  datatype Host = Host(
    cwd: string,
    processEnv: seq<(string, Option<string>)>,
    existing: set<string>,
    load: string -> Result<Value, Failure>,
    noCase: string -> string,
    parseNumber: string -> Option<real>,
    custom: (nat, Paths.PathMap, string) -> Result<RawConfig, Failure>)

  /** `env = process.env.NODE_ENV ?? "development"`, used when no `env` is passed. */
  function EnvName(env: Option<string>, nodeEnv: Option<string>): (r: string)
    ensures env.Some? ==> r == env.value
    ensures env.None? && nodeEnv.Some? ==> r == nodeEnv.value
    ensures env.None? && nodeEnv.None? ==> r == "development"
  {
    match env
    case Some(e) => e
    case None => if nodeEnv.Some? then nodeEnv.value else "development"
  }

  /**
   * The constructor: the path table is built here, so an inconsistent
   * schema fails at construction. No provider is registered yet.
   */
  function New(schema: Paths.Schema, env: Option<string>, nodeEnv: Option<string>): (r: Result<ConfigResolver, Failure>)
    ensures r.Success? <==> Paths.Build(schema).Success?
    ensures r.Failure? ==> r.error == Paths.Build(schema).error
    ensures r.Success? ==>
      && r.value.schema == schema
      && r.value.pathMap == Paths.Build(schema).value
      && Paths.Valid(r.value.pathMap)
      && r.value.env == EnvName(env, nodeEnv)
      && r.value.providers == []
  {
    var pathMap :- Paths.Build(schema);
    Success(ConfigResolver(schema, pathMap, EnvName(env, nodeEnv), []))
  }

  /** `addProvider`: the new item goes to the end; nothing else changes. */
  function AddProvider(resolver: ConfigResolver, provider: Provider, priority: int): (r: ConfigResolver)
    ensures |r.providers| == |resolver.providers| + 1
    ensures r.providers[..|resolver.providers|] == resolver.providers
    ensures r.providers[|resolver.providers|] == ProviderItem(provider, priority)
    ensures r.schema == resolver.schema && r.pathMap == resolver.pathMap && r.env == resolver.env
  {
    resolver.(providers := resolver.providers + [ProviderItem(provider, priority)])
  }

  const DefaultFileProvider: Provider := FileProvider(Files.FileOptions(None))
  const DefaultEnvProvider: Provider := EnvProvider(Env.EnvOptions(None, None))

  /** `default`: a new resolver with the file provider at 100, then the env provider at 200. */
  function Default(schema: Paths.Schema, env: Option<string>, nodeEnv: Option<string>): (r: Result<ConfigResolver, Failure>)
    ensures r.Success? <==> New(schema, env, nodeEnv).Success?
    ensures r.Success? ==>
      && r.value.pathMap == New(schema, env, nodeEnv).value.pathMap
      && r.value.env == EnvName(env, nodeEnv)
      && r.value.providers == [ProviderItem(DefaultFileProvider, 100), ProviderItem(DefaultEnvProvider, 200)]
  {
    var resolver :- New(schema, env, nodeEnv);
    Success(AddProvider(AddProvider(resolver, DefaultFileProvider, 100), DefaultEnvProvider, 200))
  }

  /* ---------- Ordering ---------- */

  predicate SortedByPriority(items: seq<ProviderItem>) {
    forall i, j :: 0 <= i < j < |items| ==> items[i].priority <= items[j].priority
  }

  /** The items of one priority, in their order in `items`. */
  function WithPriority(items: seq<ProviderItem>, q: int): (r: seq<ProviderItem>)
    ensures forall x :: x in r <==> x in items && x.priority == q
  {
    if items == [] then []
    else
      var rest := WithPriority(items[1..], q);
      assert forall x :: x in items <==> x == items[0] || x in items[1..];
      if items[0].priority == q then [items[0]] + rest else rest
  }

  /** Places `x` in front of the first item whose priority is not below its own. */
  function Insert(x: ProviderItem, sorted: seq<ProviderItem>): (r: seq<ProviderItem>)
    ensures multiset(r) == multiset(sorted) + multiset{x}
    ensures |r| == |sorted| + 1
  {
    if sorted == [] || x.priority <= sorted[0].priority then [x] + sorted
    else
      assert sorted == [sorted[0]] + sorted[1..];
      [sorted[0]] + Insert(x, sorted[1..])
  }

  /**
   * `[...providers].sort((a, b) => a.priority - b.priority)`: a stable sort
   * into ascending priority, on a copy.
   */
  function SortByPriority(items: seq<ProviderItem>): (r: seq<ProviderItem>)
    ensures multiset(r) == multiset(items)
    ensures |r| == |items|
  {
    if items == [] then []
    else
      assert items == [items[0]] + items[1..];
      Insert(items[0], SortByPriority(items[1..]))
  }

  /** Every priority of `items` is at least `b`. */
  predicate AtLeast(items: seq<ProviderItem>, b: int) {
    forall i :: 0 <= i < |items| ==> items[i].priority >= b
  }

  /** Insertion keeps a lower bound that both the item and the list respect. */
  lemma {:induction false} InsertBounded(x: ProviderItem, sorted: seq<ProviderItem>, b: int)
    requires x.priority >= b && AtLeast(sorted, b)
    ensures AtLeast(Insert(x, sorted), b)
  {
    if sorted == [] || x.priority <= sorted[0].priority {
      var r := [x] + sorted;
      forall i | 0 <= i < |r| ensures r[i].priority >= b {
        if i > 0 {
          assert r[i] == sorted[i - 1];
        }
      }
    } else {
      var tail := sorted[1..];
      assert AtLeast(tail, b) by {
        forall i | 0 <= i < |tail| ensures tail[i].priority >= b {
          assert tail[i] == sorted[i + 1];
        }
      }
      InsertBounded(x, tail, b);
      var rest := Insert(x, tail);
      var r := [sorted[0]] + rest;
      forall i | 0 <= i < |r| ensures r[i].priority >= b {
        if i > 0 {
          assert r[i] == rest[i - 1];
        }
      }
    }
  }

  /** A list is sorted when its head is at most every later item and its tail is sorted. */
  lemma ConsSorted(head: ProviderItem, rest: seq<ProviderItem>)
    requires SortedByPriority(rest) && AtLeast(rest, head.priority)
    ensures SortedByPriority([head] + rest)
  {
    var r := [head] + rest;
    forall i, j | 0 <= i < j < |r| ensures r[i].priority <= r[j].priority {
      assert r[j] == rest[j - 1];
      if i > 0 {
        assert r[i] == rest[i - 1];
      }
    }
  }

  lemma {:induction false} InsertSorted(x: ProviderItem, sorted: seq<ProviderItem>)
    requires SortedByPriority(sorted)
    ensures SortedByPriority(Insert(x, sorted))
  {
    if sorted == [] || x.priority <= sorted[0].priority {
      assert AtLeast(sorted, x.priority) by {
        forall i | 0 <= i < |sorted| ensures sorted[i].priority >= x.priority {
          if i > 0 {
            assert sorted[0].priority <= sorted[i].priority;
          }
        }
      }
      ConsSorted(x, sorted);
    } else {
      var tail := sorted[1..];
      assert SortedByPriority(tail) by {
        forall i, j | 0 <= i < j < |tail| ensures tail[i].priority <= tail[j].priority {
          assert tail[i] == sorted[i + 1] && tail[j] == sorted[j + 1];
        }
      }
      assert AtLeast(tail, sorted[0].priority) by {
        forall i | 0 <= i < |tail| ensures tail[i].priority >= sorted[0].priority {
          assert tail[i] == sorted[i + 1];
        }
      }
      InsertSorted(x, tail);
      InsertBounded(x, tail, sorted[0].priority);
      ConsSorted(sorted[0], Insert(x, tail));
    }
  }

  /** The sort puts the items in ascending priority order. */
  lemma {:induction false} SortSorted(items: seq<ProviderItem>)
    ensures SortedByPriority(SortByPriority(items))
  {
    if items != [] {
      SortSorted(items[1..]);
      InsertSorted(items[0], SortByPriority(items[1..]));
    }
  }

  lemma {:induction false} InsertStable(x: ProviderItem, sorted: seq<ProviderItem>, q: int)
    ensures WithPriority(Insert(x, sorted), q) ==
      (if x.priority == q then [x] else []) + WithPriority(sorted, q)
  {
    if sorted == [] || x.priority <= sorted[0].priority {
      assert ([x] + sorted)[1..] == sorted;
    } else {
      var r := [sorted[0]] + Insert(x, sorted[1..]);
      assert r[1..] == Insert(x, sorted[1..]);
      InsertStable(x, sorted[1..], q);
    }
  }

  /**
   * Stability: the items of any one priority come out of the sort in the
   * order they were registered.
   */
  lemma {:induction false} SortStable(items: seq<ProviderItem>, q: int)
    ensures WithPriority(SortByPriority(items), q) == WithPriority(items, q)
  {
    if items != [] {
      SortStable(items[1..], q);
      InsertStable(items[0], SortByPriority(items[1..]), q);
    }
  }

  /**
   * An item whose priority is above every other item's is the last one after
   * the sort, so its output is merged last.
   */
  lemma TopPriorityLast(items: seq<ProviderItem>, k: nat)
    requires k < |items|
    requires forall j :: 0 <= j < |items| && j != k ==> items[j].priority < items[k].priority
    ensures SortByPriority(items)[|items| - 1] == items[k]
  {
    var s := SortByPriority(items);
    SortSorted(items);
    assert multiset(s) == multiset(items) && |s| == |items|;
    LastOfSorted(items, s, k);
  }

  /** In any ascending arrangement of `items`, the one item of top priority is last. */
  lemma LastOfSorted(items: seq<ProviderItem>, s: seq<ProviderItem>, k: nat)
    requires k < |items| && |s| == |items|
    requires multiset(s) == multiset(items) && SortedByPriority(s)
    requires forall j :: 0 <= j < |items| && j != k ==> items[j].priority < items[k].priority
    ensures s[|s| - 1] == items[k]
  {
    var j := SameElements(s, items, |s| - 1);
    var i := SameElements(items, s, k);
    assert items[k].priority <= items[j].priority by {
      if i < |s| - 1 {
        assert s[i].priority <= s[|s| - 1].priority;
      }
    }
    assert j == k;
  }

  /** An element of one of two sequences with the same multiset sits somewhere in the other. */
  lemma SameElements(a: seq<ProviderItem>, b: seq<ProviderItem>, i: nat) returns (j: nat)
    requires multiset(a) == multiset(b) && i < |a|
    ensures j < |b| && b[j] == a[i]
  {
    assert a[i] in multiset(a);
    assert a[i] in b;
    j :| 0 <= j < |b| && b[j] == a[i];
  }

  /* ---------- Resolution ---------- */

  /** One provider's `read`, given the resolver's path table and environment name. */
  function ReadProvider(host: Host, provider: Provider, pathMap: Paths.PathMap, env: string): Result<RawConfig, Failure> {
    match provider
    case FileProvider(options) => Files.Read(options, env, host.cwd, host.existing, host.load)
    case EnvProvider(options) => Env.ReadWithOptions(options, host.processEnv, pathMap, host.noCase, host.parseNumber)
    case CustomProvider(id) => host.custom(id, pathMap, env)
  }

  /**
   * The providers without options: the file provider reads under
   * `<cwd>/config`, the environment provider reads the process environment
   * with the empty prefix; a custom provider's read is the host's.
   */
  lemma ReadProviderDefaults(host: Host, pathMap: Paths.PathMap, env: string, id: nat)
    ensures ReadProvider(host, FileProvider(Files.FileOptions(None)), pathMap, env)
         == Files.Read(Files.FileOptions(Some(host.cwd + "/config")), env, host.cwd, host.existing, host.load)
    ensures ReadProvider(host, EnvProvider(Env.EnvOptions(None, None)), pathMap, env)
         == Env.Read("", host.processEnv, pathMap, host.noCase, host.parseNumber)
    ensures ReadProvider(host, CustomProvider(id), pathMap, env) == host.custom(id, pathMap, env)
  {
    Files.ReadDefaultBase(env, host.cwd, host.existing, host.load);
    Env.ReadWithOptionsDefaults(Env.EnvOptions(None, None), host.processEnv, host.processEnv,
                                pathMap, host.noCase, host.parseNumber);
  }

  /** The provider outputs in ascending priority order; the first failing read aborts. */
  function Layers(resolver: ConfigResolver, host: Host): Result<seq<RawConfig>, Failure> {
    MapAll(SortByPriority(resolver.providers),
           (item: ProviderItem) => ReadProvider(host, item.provider, resolver.pathMap, resolver.env))
  }

  /**
   * The reads succeed exactly when every registered provider reads
   * successfully, whatever their priorities; a failure is the error of a
   * registered provider.
   */
  lemma LayersSucceed(resolver: ConfigResolver, host: Host)
    ensures Layers(resolver, host).Success? <==>
      forall i :: 0 <= i < |resolver.providers| ==>
        ReadProvider(host, resolver.providers[i].provider, resolver.pathMap, resolver.env).Success?
    ensures Layers(resolver, host).Failure? ==>
      exists i :: 0 <= i < |resolver.providers| &&
        ReadProvider(host, resolver.providers[i].provider, resolver.pathMap, resolver.env)
          == Failure(Layers(resolver, host).error)
  {
    var items := resolver.providers;
    var sorted := SortByPriority(items);
    var f := (item: ProviderItem) => ReadProvider(host, item.provider, resolver.pathMap, resolver.env);
    if Layers(resolver, host).Success? {
      forall i | 0 <= i < |items| ensures f(items[i]).Success? {
        var j := SameElements(items, sorted, i);
      }
    } else {
      var j :| 0 <= j < |sorted| && f(sorted[j]).Failure? && f(sorted[j]).error == Layers(resolver, host).error;
      var i := SameElements(sorted, items, j);
      assert f(items[i]) == Failure(Layers(resolver, host).error);
    }
  }

  /** The merge loop of `resolve`: every output folded into `{}` with `deepMerge`. */
  function Merged(resolver: ConfigResolver, host: Host): (r: Result<RawConfig, Failure>)
    ensures r.Success? <==> Layers(resolver, host).Success?
    ensures r.Success? ==> r.value == MergeAll(map[], Layers(resolver, host).value)
  {
    var layers :- Layers(resolver, host);
    Success(MergeAll(map[], layers))
  }

  /**
   * `resolve`: the merged configuration, validated. A failed read is passed
   * on; a validator rejection becomes `Failed to parse config: <diagnosis>`.
   */
  function Resolve<T>(resolver: ConfigResolver, host: Host, validate: RawConfig -> Result<T, string>)
    : (r: Result<T, Failure>)
    ensures Merged(resolver, host).Failure? ==> r.Failure? && r.error == Merged(resolver, host).error
    ensures Merged(resolver, host).Success? ==>
      var outcome := validate(Merged(resolver, host).value);
      && (r.Success? <==> outcome.Success?)
      && (r.Success? ==> r.value == outcome.value)
      && (r.Failure? ==> r.error == Error("Failed to parse config: " + outcome.error))
  {
    var merged :- Merged(resolver, host);
    match validate(merged)
    case Success(output) => Success(output)
    case Failure(diagnosis) => Failure(Error("Failed to parse config: " + diagnosis))
  }

  /**
   * Higher priority wins: when one provider's priority is above all others
   * and its output holds a non-object value at `p`, the merged configuration
   * holds that value at `p`.
   */
  lemma HighestPriorityWins(resolver: ConfigResolver, host: Host, k: nat, p: seq<string>, v: Value)
    requires Layers(resolver, host).Success?
    requires k < |resolver.providers|
    requires forall j :: 0 <= j < |resolver.providers| && j != k ==>
      resolver.providers[j].priority < resolver.providers[k].priority
    requires var item := resolver.providers[k];
      var out := ReadProvider(host, item.provider, resolver.pathMap, resolver.env);
      out.Success? && Lookup(Obj(out.value), p) == Some(v) && !v.Obj?
    ensures Merged(resolver, host).Success?
    ensures Lookup(Obj(Merged(resolver, host).value), p) == Some(v)
  {
    var layers := Layers(resolver, host).value;
    var last := |resolver.providers| - 1;
    TopLayerLast(resolver, host, k);
    var item := resolver.providers[k];
    assert ReadProvider(host, item.provider, resolver.pathMap, resolver.env) == Success(layers[last]);
    assert Lookup(Obj(layers[last]), p) == Some(v);
    LaterLayerWins(map[], layers, last, p, v);
    assert Merged(resolver, host) == Success(MergeAll(map[], layers));
  }

  /** The provider of strictly highest priority supplies the last layer. */
  lemma TopLayerLast(resolver: ConfigResolver, host: Host, k: nat)
    requires Layers(resolver, host).Success?
    requires k < |resolver.providers|
    requires forall j :: 0 <= j < |resolver.providers| && j != k ==>
      resolver.providers[j].priority < resolver.providers[k].priority
    ensures var layers := Layers(resolver, host).value;
      && |layers| == |resolver.providers|
      && ReadProvider(host, resolver.providers[k].provider, resolver.pathMap, resolver.env)
           == Success(layers[|layers| - 1])
  {
    var items := resolver.providers;
    var sorted := SortByPriority(items);
    var layers := Layers(resolver, host).value;
    TopPriorityLast(items, k);
    var last := |items| - 1;
    assert |sorted| == |items| && sorted[last] == items[k];
    assert |layers| == |items|;
    assert layers[last] == ReadProvider(host, sorted[last].provider, resolver.pathMap, resolver.env).value;
  }

  /**
   * With the default providers, a non-object value the environment provides
   * at `p` overrides whatever the configuration files hold there.
   */
  lemma DefaultEnvOverridesFiles(schema: Paths.Schema, env: Option<string>, nodeEnv: Option<string>,
                                 host: Host, p: seq<string>, v: Value)
    requires Default(schema, env, nodeEnv).Success?
    requires Layers(Default(schema, env, nodeEnv).value, host).Success?
    requires var resolver := Default(schema, env, nodeEnv).value;
      var out := ReadProvider(host, DefaultEnvProvider, resolver.pathMap, resolver.env);
      out.Success? && Lookup(Obj(out.value), p) == Some(v) && !v.Obj?
    ensures Lookup(Obj(Merged(Default(schema, env, nodeEnv).value, host).value), p) == Some(v)
  {
    var resolver := Default(schema, env, nodeEnv).value;
    var items := resolver.providers;
    assert items == [ProviderItem(DefaultFileProvider, 100), ProviderItem(DefaultEnvProvider, 200)];
    assert items[1].provider == DefaultEnvProvider;
    assert forall j :: 0 <= j < |items| && j != 1 ==> items[j].priority < items[1].priority;
    HighestPriorityWins(resolver, host, 1, p, v);
  }

  /** Two items registered with the higher priority first are swapped by the sort. */
  lemma SortTwo(items: seq<ProviderItem>)
    requires |items| == 2 && items[0].priority > items[1].priority
    ensures SortByPriority(items) == [items[1], items[0]]
  {
    var a, b := items[0], items[1];
    assert items[1..] == [b];
    SortOne(b);
    InsertAfterOne(a, b);
  }

  lemma SortOne(x: ProviderItem)
    ensures SortByPriority([x]) == [x]
  {
    assert [x][1..] == [];
    assert Insert(x, []) == [x];
  }

  lemma InsertAfterOne(x: ProviderItem, y: ProviderItem)
    requires x.priority > y.priority
    ensures Insert(x, [y]) == [y, x]
  {
    assert [y][1..] == [];
    assert Insert(x, []) == [x];
  }

  /** The outputs of two providers come out lowest priority first. */
  lemma LayersTwo(resolver: ConfigResolver, host: Host, low: RawConfig, high: RawConfig)
    requires |resolver.providers| == 2
    requires resolver.providers[0].priority > resolver.providers[1].priority
    requires ReadProvider(host, resolver.providers[1].provider, resolver.pathMap, resolver.env) == Success(low)
    requires ReadProvider(host, resolver.providers[0].provider, resolver.pathMap, resolver.env) == Success(high)
    ensures Layers(resolver, host) == Success([low, high])
  {
    SortTwo(resolver.providers);
    var sorted := SortByPriority(resolver.providers);
    var f := (item: ProviderItem) => ReadProvider(host, item.provider, resolver.pathMap, resolver.env);
    assert f(sorted[0]) == Success(low) && f(sorted[1]) == Success(high);
    MapAllPair(sorted, f);
  }

  /** Folding a low-priority output and then a high-priority one: every conflict goes to the latter. */
  lemma FoldExample(low: RawConfig, high: RawConfig)
    requires low == map["key1" := Str("low"), "nested" := Obj(map["key3" := Bool(false)])]
    requires high == map["key1" := Str("high"), "key2" := Num(42.0), "nested" := Obj(map["key3" := Bool(true)])]
    ensures MergeAll(map[], [low, high]) == high
  {
    MergeAllPair(map[], low, high);
    MergeEmptyBase(low);
    FoldExampleTop(low, high);
  }

  lemma FoldExampleTop(low: RawConfig, high: RawConfig)
    requires low == map["key1" := Str("low"), "nested" := Obj(map["key3" := Bool(false)])]
    requires high == map["key1" := Str("high"), "key2" := Num(42.0), "nested" := Obj(map["key3" := Bool(true)])]
    ensures DeepMerge(low, high) == high
  {
    var twice := DeepMerge(low, high);
    FoldExampleNested();
    assert twice.Keys == high.Keys;
    assert twice["nested"] == MergeAt(low, high, "nested") == high["nested"];
  }

  lemma FoldExampleNested()
    ensures DeepMerge(map["key3" := Bool(false)], map["key3" := Bool(true)]) == map["key3" := Bool(true)]
  {
    var inner := DeepMerge(map["key3" := Bool(false)], map["key3" := Bool(true)]);
    assert inner.Keys == {"key3"};
  }

  /**
   * Two providers registered high (100) before low (50): the low one is
   * merged first, so "high" wins at `key1` and `nested.key3` is `true`.
   */
  lemma PrioritizesExample(resolver: ConfigResolver, host: Host)
    requires resolver.providers == [ProviderItem(CustomProvider(0), 100), ProviderItem(CustomProvider(1), 50)]
    requires host.custom(0, resolver.pathMap, resolver.env)
      == Success(map["key1" := Str("high"), "key2" := Num(42.0), "nested" := Obj(map["key3" := Bool(true)])])
    requires host.custom(1, resolver.pathMap, resolver.env)
      == Success(map["key1" := Str("low"), "nested" := Obj(map["key3" := Bool(false)])])
    ensures Merged(resolver, host)
      == Success(map["key1" := Str("high"), "key2" := Num(42.0), "nested" := Obj(map["key3" := Bool(true)])])
  {
    var low := map["key1" := Str("low"), "nested" := Obj(map["key3" := Bool(false)])];
    var high := map["key1" := Str("high"), "key2" := Num(42.0), "nested" := Obj(map["key3" := Bool(true)])];
    LayersTwo(resolver, host, low, high);
    FoldExample(low, high);
  }
}

=== FILE: strings.dfy ===
/**
 * The string operations the core relies on: splitting on and joining with a
 * delimiter (JavaScript `split`/`join`), ASCII lower-casing, character
 * replacement, prefix tests and the `/^[0-9]+$/` digit test.
 */
module Strings {

  function LowerChar(c: char): (r: char)
    ensures 'A' <= c <= 'Z' ==> r as int == c as int + 32
    ensures !('A' <= c <= 'Z') ==> r == c
  {
    if 'A' <= c <= 'Z' then (c as int + 32) as char else c
  }

  /** `toLowerCase`, restricted to the ASCII letters. */
  function ToLower(s: string): (r: string)
    ensures |r| == |s|
    ensures forall i :: 0 <= i < |s| ==> r[i] == LowerChar(s[i])
  {
    if s == [] then [] else [LowerChar(s[0])] + ToLower(s[1..])
  }

  /** `s.replace(/x/g, y)` for a single character `x`. */
  function ReplaceAll(s: string, x: char, y: char): (r: string)
    ensures |r| == |s|
    ensures forall i :: 0 <= i < |s| ==> r[i] == (if s[i] == x then y else s[i])
  {
    if s == [] then [] else [if s[0] == x then y else s[0]] + ReplaceAll(s[1..], x, y)
  }

  predicate StartsWith(s: string, prefix: string) {
    |prefix| <= |s| && s[..|prefix|] == prefix
  }

  predicate IsDigit(c: char) {
    '0' <= c <= '9'
  }

  /** The test `/^[0-9]+$/`: non-empty and made of decimal digits only. */
  predicate IsDigits(s: string) {
    |s| > 0 && forall i :: 0 <= i < |s| ==> IsDigit(s[i])
  }

  /** The value of a decimal numeral, as `Number(s)` computes it for digit strings. */
  function DigitsValue(s: string): nat
    requires forall i :: 0 <= i < |s| ==> IsDigit(s[i])
  {
    if s == [] then 0
    else
      assert IsDigit(s[|s| - 1]);
      DigitsValue(s[..|s| - 1]) * 10 + (s[|s| - 1] as int - '0' as int)
  }

  predicate Contains(s: string, c: char) {
    exists i :: 0 <= i < |s| && s[i] == c
  }

  /** `s.split(d)`: the maximal `d`-free pieces, always at least one. */
  function Split(s: string, d: char): (r: seq<string>)
    ensures |r| >= 1
    ensures forall i :: 0 <= i < |r| ==> !Contains(r[i], d)
  {
    if s == [] then [[]]
    else
      var rest := Split(s[1..], d);
      if s[0] == d then [[]] + rest
      else
        assert !Contains(rest[0], d);
        [[s[0]] + rest[0]] + rest[1..]
  }

  /** `parts.join(d)`. */
  function Join(parts: seq<string>, d: char): string
  {
    if parts == [] then []
    else if |parts| == 1 then parts[0]
    else parts[0] + [d] + Join(parts[1..], d)
  }

  /** Joining the pieces of a split gives back the original string. */
  lemma {:induction false} JoinSplit(s: string, d: char)
    ensures Join(Split(s, d), d) == s
  {
    if s != [] {
      var rest := Split(s[1..], d);
      JoinSplit(s[1..], d);
      if s[0] == d {
        assert Split(s, d) == [[]] + rest;
        assert ([[]] + rest)[1..] == rest;
      } else {
        var parts := [[s[0]] + rest[0]] + rest[1..];
        assert Split(s, d) == parts;
        if |rest| == 1 {
          assert Join(parts, d) == [s[0]] + rest[0];
        } else {
          assert parts[1..] == rest[1..];
          assert Join(rest, d) == rest[0] + [d] + Join(rest[1..], d);
        }
      }
    }
  }

  /** Splitting a join of delimiter-free pieces gives back the pieces. */
  lemma {:induction false} SplitJoin(parts: seq<string>, d: char)
    requires |parts| >= 1
    requires forall i :: 0 <= i < |parts| ==> !Contains(parts[i], d)
    ensures Split(Join(parts, d), d) == parts
  {
    if |parts| == 1 {
      SplitFree(parts[0], d);
    } else {
      SplitJoin(parts[1..], d);
      SplitPrefixed(parts[0], Join(parts[1..], d), d);
      assert [parts[0]] + parts[1..] == parts;
    }
  }

  lemma {:induction false} SplitFree(s: string, d: char)
    requires !Contains(s, d)
    ensures Split(s, d) == [s]
  {
    if s != [] {
      assert !Contains(s[1..], d) by {
        forall i | 0 <= i < |s[1..]| ensures s[1..][i] != d {
          assert s[1..][i] == s[i + 1];
        }
      }
      SplitFree(s[1..], d);
      assert s[0] != d;
      assert [s[0]] + s[1..] == s;
    }
  }

  lemma {:induction false} SplitPrefixed(a: string, b: string, d: char)
    requires !Contains(a, d)
    ensures Split(a + [d] + b, d) == [a] + Split(b, d)
  {
    if a == [] {
      assert a + [d] + b == [d] + b;
      assert ([d] + b)[1..] == b;
    } else {
      assert (a + [d] + b)[1..] == a[1..] + [d] + b;
      assert !Contains(a[1..], d) by {
        forall i | 0 <= i < |a[1..]| ensures a[1..][i] != d {
          assert a[1..][i] == a[i + 1];
        }
      }
      SplitPrefixed(a[1..], b, d);
      assert a[0] != d;
      assert [a[0]] + a[1..] == a;
    }
  }

  /** Splitting at a delimiter between two strings splits each side separately. */
  lemma {:induction false} SplitConcat(a: string, b: string, d: char)
    ensures Split(a + [d] + b, d) == Split(a, d) + Split(b, d)
  {
    if a == [] {
      assert a + [d] + b == [d] + b;
      assert ([d] + b)[1..] == b;
    } else {
      assert (a + [d] + b)[1..] == a[1..] + [d] + b;
      SplitConcat(a[1..], b, d);
    }
  }

  /** `s.replace("c", r)` for a one-character pattern: only the first occurrence changes. */
  function ReplaceFirst(s: string, c: char, r: string): (t: string)
    ensures !Contains(s, c) ==> t == s
  {
    if s == [] then []
    else if s[0] == c then r + s[1..]
    else [s[0]] + ReplaceFirst(s[1..], c, r)
  }
}

=== FILE: values.dfy ===
/**
 * Raw configuration values: the untyped nested data every provider returns
 * and the resolver merges. A `RawConfig` is the string-keyed record at the
 * top (`Record<string, unknown>`); below it sit objects, arrays (index to
 * element, so holes are allowed), strings, numbers, booleans and null.
 */
module Values {
  import opened Wrappers

  datatype Value =
    | Obj(fields: map<string, Value>)
    | Arr(elems: map<nat, Value>)
    | Str(s: string)
    | Num(n: real)
    | Bool(b: bool)
    | Null

  type RawConfig = map<string, Value>

  /** The JavaScript `typeof` of a value. */
  function TypeOf(v: Value): string {
    match v
    case Obj(_) => "object"
    case Arr(_) => "object"
    case Null => "object"
    case Str(_) => "string"
    case Num(_) => "number"
    case Bool(_) => "boolean"
  }

  /** JavaScript truthiness: `false`, `0`, `""` and `null` are falsy. */
  predicate Truthy(v: Value) {
    match v
    case Null => false
    case Bool(b) => b
    case Num(n) => n != 0.0
    case Str(s) => s != ""
    case _ => true
  }

  /** The value reached by following object keys `p` from `v`, if any. */
  function Lookup(v: Value, p: seq<string>): Option<Value>
    decreases |p|
  {
    if p == [] then Some(v)
    else if v.Obj? && p[0] in v.fields then Lookup(v.fields[p[0]], p[1..])
    else None
  }
}

=== FILE: wrappers.dfy ===
/** Failure-compatible Option and Result types shared by every module. */
module Wrappers {

  datatype Option<+T> = None | Some(value: T) {
    predicate IsFailure() {
      None?
    }

    function PropagateFailure<U>(): Option<U>
      requires None?
    {
      None
    }

    function Extract(): T
      requires Some?
    {
      value
    }
  }

  datatype Result<+R, +E> = Success(value: R) | Failure(error: E) {
    predicate IsFailure() {
      Failure?
    }

    function PropagateFailure<U>(): Result<U, E>
      requires Failure?
    {
      Failure(error)
    }

    function Extract(): R
      requires Success?
    {
      value
    }
  }

  /**
   * Applies `f` to every element in order and collects the results; the
   * first failure aborts the rest (an `await` inside a `for` loop).
   */
  function MapAll<A, B, E>(xs: seq<A>, f: A -> Result<B, E>): (r: Result<seq<B>, E>)
    ensures r.Success? <==> forall i :: 0 <= i < |xs| ==> f(xs[i]).Success?
    ensures r.Success? ==> |r.value| == |xs| &&
                           (forall i :: 0 <= i < |xs| ==> r.value[i] == f(xs[i]).value)
    ensures r.Failure? ==>
      (exists i :: 0 <= i < |xs| && f(xs[i]).Failure? && f(xs[i]).error == r.error &&
                   (forall j :: 0 <= j < i ==> f(xs[j]).Success?))
  {
    if xs == [] then Success([])
    else
      var first := f(xs[0]);
      if first.Failure? then Failure(first.error)
      else
        var tail := xs[1..];
        var rest := MapAll(tail, f);
        assert forall i :: 1 <= i < |xs| ==> xs[i] == tail[i - 1];
        if rest.Failure? then
          ghost var i :| 0 <= i < |tail| && f(tail[i]).Failure? && f(tail[i]).error == rest.error &&
                   (forall j :: 0 <= j < i ==> f(tail[j]).Success?);
          assert f(xs[i + 1]).Failure? && f(xs[i + 1]).error == rest.error;
          Failure(rest.error)
        else
          Success([first.value] + rest.value)
  }

  /** `MapAll` over a pair of successful calls. */
  lemma MapAllPair<A, B, E>(xs: seq<A>, f: A -> Result<B, E>)
    requires |xs| == 2 && f(xs[0]).Success? && f(xs[1]).Success?
    ensures MapAll(xs, f) == Success([f(xs[0]).value, f(xs[1]).value])
  {
    var r := MapAll(xs, f);
    var s := [f(xs[0]).value, f(xs[1]).value];
    assert r.Success?;
    assert |r.value| == |s| == 2;
    assert r.value[0] == s[0] && r.value[1] == s[1];
    assert r.value == s;
  }

  /** The first `Some` that `f` gives along `xs`, in order (a `for` loop that returns on its first hit). */
  function FindFirst<A, B>(xs: seq<A>, f: A -> Option<B>): (r: Option<B>)
    ensures r.None? <==> forall i :: 0 <= i < |xs| ==> f(xs[i]).None?
    ensures r.Some? ==>
      exists i :: 0 <= i < |xs| && f(xs[i]) == r && (forall j :: 0 <= j < i ==> f(xs[j]).None?)
  {
    if xs == [] then None
    else if f(xs[0]).Some? then f(xs[0])
    else
      var tail := xs[1..];
      var r := FindFirst(tail, f);
      assert forall i :: 1 <= i < |xs| ==> xs[i] == tail[i - 1];
      if r.Some? then
        ghost var i :| 0 <= i < |tail| && f(tail[i]) == r && (forall j :: 0 <= j < i ==> f(tail[j]).None?);
        assert f(xs[i + 1]) == r;
        assert forall j :: 0 <= j < i + 1 ==> f(xs[j]).None?;
        r
      else r
  }
}
